=== FILE: README.md ===
# invaders-map-paris: field extractors and map rules

A model of the two pure layers of the Space Invaders map of Paris.

- **Field extractors** (`utils/extract_functions.py`). They read one field out of an HTML cell scraped from the Invader Spotter listing:
  - the artwork code `PA_<n>`;
  - the points `<k> pts`;
  - the combined `<b>PA_n [k pts]</b>`;
  - the district link text;
  - the condition text;
  - the image `src` as an absolute URL.
- **Download step.** `download_png` derives a file name from the URL and skips names that already exist. `download_images.py` runs it in a loop.
- **Map decision rules** (`app.py`). These cover:
  - the zero-padded image path of an artwork number;
  - the condition → colour table, with "captured" overriding it;
  - the routing of each marker to the captured or the still-to-capture layer;
  - the "URL tiles need an attribution" check;
  - the Instagram tag;
  - the `index` route's inner join and its `captured = False` column.

Modules:

| file | module | contents |
|---|---|---|
| wrappers.dfy | Wrappers | `Option`, `Result` |
| text.dfy | Text | `\d`, `\s` (Python's `str.isspace`), runs, numerals, `int`, `str`, `strip` |
| scan.dfy | Scan | the leftmost-start loop of `re.search` |
| extract.dfy | Extract | the five extractors and the image URL |
| download.dfy | Download | `os.path.basename`, `download_png`, the download loop |
| imagename.dfy | ImageName | `generate_image_name` and its inverse |
| render.dfy | Render | colours, markers, layers, tile check, Instagram tag |
| dataset.dfy | Dataset | the merge, the `captured` column, the `index` route |

Each regular expression is modelled twice:
- a *span* predicate states where a match with given split points lies;
- a matcher tries the split points in the order of Python's backtracking engine: greedy quantifiers longest first, lazy ones shortest first.

`Scan.Search` tries the starts from left to right. A `...SearchIsFirst` lemma per pattern shows what that search returns:
- no match when no span exists;
- otherwise the leftmost start, and at that start the split the engine prefers.

The `...Leftmost` lemma states this for the extractor itself.

The network and the file system enter as data:
- the save directory is a set of entry names;
- a request's outcome is a `Fetch` value (`Fetched` or `Failed`);
- a batch is given a function from URL to outcome.

A missing spreadsheet cell (NaN) is `Cell.Missing`, and a missing condition is `None`.

## Model

| member | source | states |
|---|---|---|
| Scan.Search | utils/extract_functions.py:112 | `re.search` returns the first start at which the pattern matches, with what matched there, and no match when it matches at no start up to the end of the text |
| Text.IsDigit | utils/extract_functions.py:112 | the `\d` class of the three numeric patterns, restricted to the ASCII digits '0'-'9' (see Extract.NameAt under Left out); DigitIsNotSpace separates it from `\s` |
| Text.IsSpace | utils/extract_functions.py:172-174 | the characters `\s` and `str.strip()` treat as whitespace; DigitIsNotSpace shows no digit is one of them |
| Text.Decimal | app.py:170 | the decimal numeral `"{:04d}"` pads: a non-empty digit string without a leading zero; DecimalRoundTrip reads it back as n |
| Text.DecimalRoundTrip | utils/extract_functions.py:127 | `int(str(n)) == n` |
| Text.DecimalValue | utils/extract_functions.py:127 | `int()` of a digit string; no contract of its own, read back by DecimalRoundTrip and LeadingZeros |
| Text.LeadingZeros | app.py:170 | leading zeros do not change the value `int()` reads |
| Extract.ExtractName | utils/extract_functions.py:112-113 | extract_name; no contract of its own: ExtractNameLeftmost and ExtractNameShape state what it returns |
| Extract.NameAt | utils/extract_functions.py:112 | `PA_\d+` tried at one position matches exactly when some span starts there, and takes the longest digit run |
| Extract.NameSearchIsFirst | utils/extract_functions.py:112 | the search finds nothing exactly when the text has no `PA_<digits>`, and otherwise the leftmost start with its longest digit run |
| Extract.ExtractNameLeftmost | utils/extract_functions.py:112-113 | extract_name returns a code exactly when the text contains `PA_` followed by a digit, and it is the text of the leftmost, longest match |
| Extract.ExtractNameShape | utils/extract_functions.py:112-113 | a returned code is `PA_` plus a non-empty digit run, occurs in the input, and is not followed there by another digit |
| Extract.ExtractNameFindsCode | utils/extract_functions.py:112-113 | in `pre + "PA_" + digits + post`, with no 'P' in pre and no digit opening post, the code returned is exactly `PA_` + digits |
| Extract.ExtractPoints | utils/extract_functions.py:126-127 | extract_points; no contract of its own: ExtractPointsLeftmost and ExtractPointsReadsNumber state what it returns |
| Extract.PointsSpanForced | utils/extract_functions.py:126 | at a given start, a match of `(\d+)\s+pts` has only one possible split: the digit run and the whitespace run that follow |
| Extract.PointsAt | utils/extract_functions.py:126 | the pattern tried at one position matches exactly when a span starts there, and the split it returns is the only one |
| Extract.PointsSearchIsFirst | utils/extract_functions.py:126 | the search finds nothing exactly when the text has no `<digits><spaces>pts`, and otherwise the leftmost one |
| Extract.ExtractPointsLeftmost | utils/extract_functions.py:126-127 | extract_points returns a number exactly when some digit run is followed by whitespace and `pts`, and it is the value of the leftmost such run |
| Extract.ExtractPointsReadsNumber | utils/extract_functions.py:126-127 | `str(n) + " pts"` after a digit-free prefix reads back as n (`int(str(n)) == n` included) |
| Extract.ExtractNameAndPoints | utils/extract_functions.py:141-147 | extract_name_and_points; no contract of its own: ExtractNameAndPointsLeftmost and ExtractNameAndPointsName state what it returns |
| Extract.NamePointsSpanForced | utils/extract_functions.py:141 | every split point of a `<b>(PA_\d+)\s+\[(\d+)\s+pts\]</b>` match is fixed by its start |
| Extract.NamePointsAt | utils/extract_functions.py:141 | the combined pattern tried at one position matches exactly when a span starts there, with its only split |
| Extract.NamePointsSearchIsFirst | utils/extract_functions.py:141 | the search finds nothing exactly when there is no combined span, and otherwise the leftmost one |
| Extract.ExtractNameAndPointsLeftmost | utils/extract_functions.py:141-147 | the name and the points come together or not at all, exactly when a combined span exists; they are group 1 and the value of group 2 of the leftmost span |
| Extract.ExtractNameAndPointsName | utils/extract_functions.py:141-147 | the name part of a combined match is what extract_name returns on it |
| Extract.ExtractDistrict | utils/extract_functions.py:161-166 | extract_district; no contract of its own: ExtractDistrictLeftmost and ExtractDistrictShortest state what it returns |
| Extract.CloseFrom | utils/extract_functions.py:161 | the lazy `(.*?)</a>` stops at the first `</a>` before any line break, or finds none |
| Extract.LinkFrom | utils/extract_functions.py:161 | the lazy `.+?\);">` ending is tried shortest first; the split it returns comes first in that order among all spans |
| Extract.DistrictAt | utils/extract_functions.py:161 | the district pattern tried at one position matches exactly when a span starts there, giving the lazily preferred split |
| Extract.DistrictSearchIsFirst | utils/extract_functions.py:161 | the search finds nothing exactly when there is no district link, and otherwise the leftmost one with the shortest split |
| Extract.ExtractDistrictLeftmost | utils/extract_functions.py:161-166 | extract_district returns text exactly when the input holds a `javascript:lienv(...)` link, and it is the group of the leftmost match, shortest split first |
| Extract.ExtractDistrictShortest | utils/extract_functions.py:161-166 | the returned text holds no `</a>` and no line break |
| Extract.ExtractState | utils/extract_functions.py:169-175 | extract_state; no contract of its own: ExtractStateLeftmost and ExtractStateClean state what it returns |
| Extract.LineEndAtOrBefore | utils/extract_functions.py:172 | the greedy `[^<]+` gives back characters until `$` (multi-line) holds, finding the last line end in range or none |
| Extract.StateFrom | utils/extract_functions.py:172 | the greedy `\s*` gives back characters one at a time; the split found is the greedy-first among those in range |
| Extract.StateAt | utils/extract_functions.py:172 | `>\s*([^<]+)$` tried at one position matches exactly when a span starts there, with the greedy-first split |
| Extract.StateSearchIsFirst | utils/extract_functions.py:172 | the search finds nothing exactly when there is no span, and otherwise the leftmost one, greedy-first |
| Extract.ExtractStateLeftmost | utils/extract_functions.py:169-175 | None for a missing cell; on text, a value exactly when the pattern matches, namely the stripped group of the leftmost match |
| Extract.ExtractStateClean | utils/extract_functions.py:172-174 | a returned condition has no '<' and neither starts nor ends with whitespace |
| Extract.ImageUrl | utils/extract_functions.py:183-184 | the URL of one cell; no contract of its own: ImageUrlLeftmost and ImageUrlShape state what it returns |
| Extract.SrcFrom | utils/extract_functions.py:183 | the greedy `[^>]*` gives back characters until `src="` and a closed non-empty value follow, so the last `src="` inside the tag wins |
| Extract.ImageAt | utils/extract_functions.py:183 | `<img[^>]*src="([^"]+)"` tried at one position matches exactly when a span starts there, with the greedy-preferred split |
| Extract.ImageSearchIsFirst | utils/extract_functions.py:183 | the search finds nothing exactly when there is no `<img ... src="..."`, and otherwise the leftmost one |
| Extract.ImageUrlLeftmost | utils/extract_functions.py:183-184 | None for a missing cell; on text, a URL exactly when an image source is found, namely the site root followed by the leftmost one |
| Extract.GenerateImageUrl | utils/extract_functions.py:178-186 | one entry per row, in row order; a row gets a URL exactly when its cell is text holding an `<img ... src="..."`, and the URL is the site root followed by the leftmost such source; a missing cell stays missing |
| Extract.ImageUrlShape | utils/extract_functions.py:183-184 | a URL is `https://www.invader-spotter.art/` followed by a non-empty relative part without '"' |
| Text.Strip | utils/extract_functions.py:174 | `strip()` leaves a slice of the input with no whitespace at either end, and removes only whitespace runs from the two ends |
| Text.StripKeepsOut | utils/extract_functions.py:174 | stripping adds no character |
| Download.PathExists | utils/extract_functions.py:195-199 | `os.path.exists(os.path.join(save_dir, name))` in an existing directory: true for the directory itself, ".", ".." and the entries; DownloadPng and AllPresent state how the skip depends on it |
| Download.Basename | utils/extract_functions.py:193 | the base name is a suffix of the path without '/', preceded by '/' unless it is the whole path |
| Download.BasenameAfterSlash | utils/extract_functions.py:193 | whatever stands before the last '/' does not change the base name |
| Download.BasenameOfPlainName | utils/extract_functions.py:193 | a name without '/' is its own base name |
| Download.BasenameOfJoin | utils/extract_functions.py:193-195 | the base name of `dir/name` is name |
| Download.ImageFileName | utils/extract_functions.py:184-193 | an image URL is saved under the base name of its relative part |
| Download.DownloadPng | utils/extract_functions.py:190-211 | a request is sent exactly when the target is missing; the directory gains at most the base name, and gains it exactly when the request was sent and succeeded; a failure leaves it unchanged |
| Download.DownloadTwice | utils/extract_functions.py:197-208 | two calls equal one call that succeeds if either did; the same outcome twice equals once; after a success no second request is sent |
| Download.Reached | download_images.py:23-24 | the loop reaches the URLs before the first missing one (its base name raises an uncaught TypeError) |
| Download.DownloadAll | download_images.py:16-24 | the batch only adds base names of reached URLs, sends at most one request per reached URL, and stops early exactly when a URL is missing; AllFetched and AddedWereFetched pin the saved names to the reached URLs whose request succeeded, so a failure does not stop the rest |
| Download.AllPresent | download_images.py:23-24 | when every reached name exists already, the batch sends nothing and changes nothing |
| Download.AllFetched | download_images.py:23-24 | a failed download does not stop the batch: every reached URL whose request succeeds has its file afterwards, whatever the other requests did |
| Download.FetchedNamesMembers | download_images.py:23-24 | a name is among the fetched names of a URL list exactly when some URL of the list with a successful request saves to it |
| Download.AddedWereFetched | download_images.py:23-24 | every name a batch adds is the file of a reached URL whose request succeeded |
| Download.AddedNameSource | download_images.py:23-24 | a name that is new after the batch comes from a reached URL whose request succeeded and whose base name it is |
| Download.FailureDoesNotStopBatch | utils/extract_functions.py:210-211 | a failed request on `r/x` followed by a successful one on `r/y` sends both requests, saves `y` and does not abort |
| Download.DownloadAllTwice | download_images.py:23-24 | after a run in which every request succeeded, a second run sends no request and changes nothing, whatever the network answers |
| ImageName.ZeroFill | app.py:170 | padding to a width gives that width, or the text itself when it is already wider, with the text at the end and only zeros before it |
| ImageName.FormatZeroPadded | app.py:170 | `"{:04d}"` has exactly the width or, when longer, the length of the numeral (with the '-' counted for n < 0); for n >= 0 it is a numeral of value n, and for n < 0 it is '-' before a numeral of value -n, which fixes the text |
| ImageName.GenerateImageName | app.py:169-171 | the path starts with `img/PA_`, ends with `-grosplan.png`, and is at least 24 characters long |
| ImageName.ImageNameRoundTrip | app.py:169-171 | the number can be read back from the path |
| ImageName.ImageNameInjective | app.py:169-171 | distinct numbers give distinct paths |
| ImageName.ImageNameFourDigits | app.py:169-171 | for 0..9999 the number field is four digits of value n and the path is 24 characters |
| ImageName.ImageNameNoTruncation | app.py:169-171 | from 10000 on, the field is the plain numeral, nothing cut, and the path is longer than 24 characters |
| ImageName.ImageNameExample | app.py:169-171 | number 1 gives `img/PA_0001-grosplan.png` |
| ImageName.FormatNegativeExample | app.py:169-171 | -5 is written `-005`, the sign taking one of the four places, and gives `img/PA_-005-grosplan.png` |
| Render.StateColors | app.py:36-44 | the `state_colors` table: the None key gives light gray, no condition is drawn blue (kept for captured markers), and no named condition is drawn light gray; LegendState reads each condition colour back to its key |
| Render.MarkerColor | app.py:80 | the colour is blue exactly when the row is captured |
| Render.LegendState | app.py:36-44 | each condition colour maps back to a key of the table with that colour |
| Render.MarkerColorRules | app.py:36-44 | captured gives blue; otherwise a known condition gets its table colour, which the legend reads back; an unknown or missing condition gets light gray; an uncaptured colour is always one of the table's colours |
| Render.MarkerColorExamples | app.py:36-44 | 'OK' is green, 'Détruit !' is black, the unknown 'ok' is light gray, and captured 'OK' is blue |
| Render.MakeMarker | app.py:80-81 | fill and border colours are equal and are the row's colour under the table rule (blue exactly when captured, otherwise the condition's colour or light gray); name, number and image come from the row |
| Render.Layer | app.py:106-109 | a layer has no more markers than rows, and its markers are blue exactly when it is the captured layer |
| Render.LayerContents | app.py:106-109 | a marker is in a layer exactly when some row with that flag produced it |
| Render.LayerSizes | app.py:106-109 | every row goes to exactly one of the two layers |
| Render.BuildLayers | app.py:78-109 | the marker loop fills the two layers with the per-flag markers in row order, and their sizes add up to the row count |
| Render.RemoveChar | app.py:84 | `replace(c, "")` leaves no c and keeps every other character with its multiplicity |
| Render.InstagramTag | app.py:84 | the tag has no '#' and no ' ', and every other character of the name keeps its count |
| Render.InstagramTagSinglePass | app.py:84 | the two replaces equal one left-to-right pass that drops '#' and ' ' and keeps the rest in order |
| Render.InstagramTagIdempotent | app.py:84 | sanitising a tag again changes nothing |
| Render.IsUrl | app.py:59 | `tiles` starts with `http://` or `https://`; NotUrl and TileCheckExamples give cases on both sides |
| Render.Truthy | app.py:63 | `not attr` is false exactly for a non-empty string; TileCheckExamples shows None and "" are falsy |
| Render.NotUrl | app.py:59 | a tile name whose first character is not 'h' is not a URL |
| Render.CreateMap | app.py:54-67 | construction fails exactly when the first builder gets no rows or URL tiles come without an attribution, and with no rows the division by zero comes first, whatever the tiles; otherwise the layers are the captured and the still-to-capture markers of the rows, in row order, the tiles are kept, and an attribution is passed exactly with URL tiles; the interactive builder (app.py:218-231) falls back to a default centre, so only the first builder fails on no rows |
| Render.TileCheck | app.py:59-67 | the attribution error needs URL tiles and a falsy attribution, and is raised for them once the centre is computed; the interactive builder then always succeeds |
| Render.TileCheckExamples | app.py:223-227 | an https tile template is a URL, "CartoDB positron" is not; None and "" are falsy, "OSM" is not |
| Dataset.Matches | app.py:323 | the right rows with the key, each paired with the left row, and all of them |
| Dataset.InnerJoin | app.py:323 | every merged pair has a left row and a right row with equal names, and every such pair is merged; the pairs follow the left rows' order, as pandas 2.2 and later order an inner merge |
| Dataset.JoinKeysAreCommon | app.py:323 | the merged names are the names present in both tables |
| Dataset.MatchesAtMostOne | app.py:323 | with unique listing names, a seed row matches at most once |
| Dataset.JoinUniqueKeys | app.py:323 | with unique names on both sides, each name occurs at most once in the merge |
| Dataset.UniqueKeysCount | app.py:323 | rows with pairwise distinct names are as many as their names |
| Dataset.JoinSizeUnique | app.py:323 | with unique names on both sides, the merge has one row per common name |
| Dataset.BuildDataset | app.py:323-333 | one map row per merged pair, none captured, each with the image path of its number, each built from a seed row and a listing row with the same name |
| Dataset.NothingCaptured | app.py:325 | with no captured row, the captured layer is empty and every row is in the layer still to capture |
| Dataset.Index | app.py:319-346 | the route's map fails exactly when the merge is empty, with a division by zero; otherwise the captured layer is empty and the other layer is the markers of the merged rows, one per merged pair |
| Dataset.IndexExample | app.py:319-346 | one seed row and its listing entry give one green marker with picture `img/PA_0001-grosplan.png` |

## Left out

- Selenium scraping (`extract_rows`, `scraping_invader_spotter`, `get_headless_driver`) and extract_invader_spotter.py: browser automation and waits.
- CSV and Excel reading, `os.makedirs`, and the progress bar: I/O.
- The map centre and the coordinate jitter (app.py:55-56, 219-220, 328-330): floating point and randomness. Only the division by zero on an empty table is kept, as an error.
- folium objects, base64 image embedding, popup HTML beyond the tag, and the inline JavaScript: rendering only.
- The Flask routes, templating, `_repr_html_`, and the `capture_invader` stub: web framework.
- The network and file contents: a request is an abstract `Fetched`/`Failed` outcome, and the directory is a set of names.
- The three popup shapes of `create_colored_map_filtered_captured` (with image and name, image only, neither) share the colour and routing rules modelled here. The popups themselves are left out.
- Extract.NameAt: `\d` is modelled as the ASCII digits only, while Python's `str` patterns also accept other Unicode decimal digits. The same applies to `\d` in extract_points and extract_name_and_points.
- Extract.ExtractName: non-string input (NaN), on which `re.search` raises TypeError, is not modelled. The same holds for extract_points, extract_name_and_points and extract_district. Only extract_state and the image URL take a possibly missing cell, as the source does.
- Extract.ExtractPoints: CPython's `int()` refuses a decimal string longer than 4300 digits (`sys.int_info.default_max_str_digits`, on versions with the conversion limit) and raises ValueError. So on a digit run that long, utils/extract_functions.py:127 raises, while the model reads the run as a number. The same holds for group 2 of Extract.ExtractNameAndPoints (utils/extract_functions.py:144).
- Extract.ExtractPointsLeftmost: promises a number for every span, including digit runs over 4300 digits, on which the source raises ValueError (see Extract.ExtractPoints above).
- Extract.ExtractPointsReadsNumber: promises `Some(n)` for every n, while the source raises ValueError when `str(n)` is longer than 4300 digits.
- Extract.ExtractNameAndPointsLeftmost: promises a pair for every span, while the source raises ValueError when the bracketed digit run is longer than 4300 digits.
- Render.CreateMap: only a missing picture (`FileNotFoundError`) is caught around `open(image)` (app.py:87-94). Any other `OSError` there, such as a permission error or a directory named like the picture, leaves the builder. The model reads no files and has no such failure, so the "fails exactly when" of Render.CreateMap and Dataset.Index leaves out file-system errors other than a missing picture.
- Dataset.InnerJoin: the row order is that of pandas 2.2 and later, which keep the left rows' order in an inner merge. Earlier versions group repeated left keys together, which changes only the marker order when a seed name repeats.
- Download.Basename: POSIX `os.path.basename` only; the Windows flavour, which also splits at '\', is not modelled.
- Download.DownloadPng: the write itself is assumed to succeed, and a write error (which the source does not catch) is not modelled. `save_dir` is assumed to exist, as download_images.py creates it first.
- Download.DownloadAll: the source iterates over the URL column of the listing as read from CSV; that reading is not modelled.
- Download.DownloadAll: the network is a function from URL to outcome, so within one run every request for the same URL gets the same answer. In the source loop (download_images.py:23-24) a request can fail and a later duplicate of the same URL succeed; the model does not cover that.
- The model does not relate the path `generate_image_name` builds (`img/PA_<number>-grosplan.png`) to the file name the download saves (the base name of the listing's `src`). No member links `ImageName.GenerateImageName` to `Download.Basename`, `Download.DownloadPng` or `Download.DownloadAll`, because nothing in the code ties a `src` value to an artwork number.

- NaN names in the merge: pandas `merge` (app.py:323) pairs a NaN `invader_name` with a NaN `name`, and the NaN name then makes `name.replace` (app.py:84) raise AttributeError. `Dataset.Seed.invaderName` and `Dataset.Listing.name` are plain strings, so the model cannot express a NaN key or that error.
- NaN numbers: a NaN `number` makes `astype(int)` (app.py:333) raise. `Dataset.Seed.number` is an `int`, so the model has no such value. The float-to-int truncation of `astype(int)` is not modelled either.
- The failure report `print` in `download_png` (utils/extract_functions.py:210-211) is not modelled: it is console output only. The model records a failed request as a sent request that leaves the directory unchanged.

## Notes on the code

- The `index` route wraps only `carte_invaders._repr_html_()` in `try`/`except` (app.py:348-353). An exception from map construction, such as the missing-attribution error or the division by zero, is not caught there and leaves the route. The model follows the code: `Dataset.Index` returns the error.
- `create_colored_map_filtered_captured` divides by `len(latitudes)` (app.py:55) before it checks the tiles. So on an empty table it fails with a division by zero, even with named tiles. `create_colored_map_interactive_capture` falls back to a default centre (app.py:219-220). `Render.CreateMap` keeps this difference.
- Re-running the downloads sends no request only for the files the first run saved. After a failed request the next run asks again (`Download.DownloadAllTwice` requires every first-run request to succeed). URLs with the same base name share one file.
- `download_png` catches only request errors. A missing URL (NaN) makes `os.path.basename` raise TypeError, which stops the loop (`Download.Reached`).

=== FILE: dataset.dfy ===
/** The data preparation of the `index` route of app.py: the inner join of
    the coordinates table with the up-to-date listing, the `captured`
    column and the image paths, and the map the route builds from them. */
module Dataset {
  import opened Wrappers
  import ImageName
  import Render

  /** A row of the coordinates table (its coordinates are not modelled). */
  datatype Seed = Seed(invaderName: string, number: int)

  /** A row of the listing, reduced to the columns the route keeps. */
  datatype Listing = Listing(name: string, state: Option<string>)

  /** The listing rows whose name is key, in listing order, paired with l. */
  function Matches(l: Seed, right: seq<Listing>): (r: seq<(Seed, Listing)>)
    ensures forall p :: p in r ==> p.0 == l && p.1 in right && p.1.name == l.invaderName
    ensures forall m :: m in right && m.name == l.invaderName ==> (l, m) in r
    ensures |r| <= |right|
  {
    if |right| == 0 then []
    else (if right[0].name == l.invaderName then [(l, right[0])] else []) + Matches(l, right[1..])
  }

  /** `df1.merge(df2, left_on='invader_name', right_on='name')`: an inner
      join that pairs every left row with every matching right row, in the
      order of the left rows, as pandas 2.2 and later order an inner merge
      (earlier versions group repeated left keys together). */
  function InnerJoin(left: seq<Seed>, right: seq<Listing>): (r: seq<(Seed, Listing)>)
    ensures forall p :: p in r ==> p.0 in left && p.1 in right && p.0.invaderName == p.1.name
    ensures forall l, m :: l in left && m in right && l.invaderName == m.name ==> (l, m) in r
  {
    if |left| == 0 then []
    else
      var head := Matches(left[0], right);
      var tail := InnerJoin(left[1..], right);
      assert forall l :: l in left ==> l == left[0] || l in left[1..];
      head + tail
  }

  function LeftKeys(left: seq<Seed>): set<string> {
    set l | l in left :: l.invaderName
  }

  function RightKeys(right: seq<Listing>): set<string> {
    set m | m in right :: m.name
  }

  function JoinKeys(r: seq<(Seed, Listing)>): set<string> {
    set p | p in r :: p.0.invaderName
  }

  /** The names that survive the join are those present in both tables. */
  lemma JoinKeysAreCommon(left: seq<Seed>, right: seq<Listing>)
    ensures JoinKeys(InnerJoin(left, right)) == LeftKeys(left) * RightKeys(right)
  {
    var r := InnerJoin(left, right);
    forall key | key in LeftKeys(left) * RightKeys(right)
      ensures key in JoinKeys(r)
    {
      var l :| l in left && l.invaderName == key;
      var m :| m in right && m.name == key;
      assert (l, m) in r;
    }
  }

  predicate UniqueLeft(left: seq<Seed>) {
    forall i, j :: 0 <= i < j < |left| ==> left[i].invaderName != left[j].invaderName
  }

  predicate UniqueRight(right: seq<Listing>) {
    forall i, j :: 0 <= i < j < |right| ==> right[i].name != right[j].name
  }

  predicate UniqueKeys(r: seq<(Seed, Listing)>) {
    forall i, j :: 0 <= i < j < |r| ==> r[i].0.invaderName != r[j].0.invaderName
  }

  /** With names unique in the listing, a seed row matches at most once. */
  lemma {:induction false} MatchesAtMostOne(l: Seed, right: seq<Listing>)
    requires UniqueRight(right)
    ensures |Matches(l, right)| <= 1
    decreases |right|
  {
    if |right| > 0 {
      assert UniqueRight(right[1..]) by {
        forall i, j | 0 <= i < j < |right| - 1
          ensures right[1..][i].name != right[1..][j].name
        {
          assert right[1..][i] == right[i + 1] && right[1..][j] == right[j + 1];
        }
      }
      MatchesAtMostOne(l, right[1..]);
      if right[0].name == l.invaderName {
        forall m | m in right[1..]
          ensures m.name != l.invaderName
        {
          var k :| 0 <= k < |right| - 1 && right[1..][k] == m;
          assert right[k + 1] == m;
        }
        MatchesNone(l, right[1..]);
      }
    }
  }

  lemma {:induction false} MatchesNone(l: Seed, right: seq<Listing>)
    requires forall m :: m in right ==> m.name != l.invaderName
    ensures Matches(l, right) == []
    decreases |right|
  {
    if |right| > 0 {
      assert right[0] in right;
      assert forall m :: m in right[1..] ==> m in right;
      MatchesNone(l, right[1..]);
    }
  }

  /** With names unique on both sides, each name occurs at most once in the
      join. */
  lemma {:induction false} JoinUniqueKeys(left: seq<Seed>, right: seq<Listing>)
    requires UniqueLeft(left) && UniqueRight(right)
    ensures UniqueKeys(InnerJoin(left, right))
    decreases |left|
  {
    if |left| > 0 {
      var tl := left[1..];
      var key := left[0].invaderName;
      UniqueLeftTail(left);
      JoinUniqueKeys(tl, right);
      MatchesAtMostOne(left[0], right);
      var head := Matches(left[0], right);
      var tail := InnerJoin(tl, right);
      assert InnerJoin(left, right) == head + tail;
      UniqueKeysPrepend(head, tail, key);
    }
  }

  /** Dropping the first row of a table with unique names leaves unique
      names, none of them the first row's. */
  lemma UniqueLeftTail(left: seq<Seed>)
    requires UniqueLeft(left) && |left| > 0
    ensures UniqueLeft(left[1..])
    ensures forall l :: l in left[1..] ==> l.invaderName != left[0].invaderName
  {
    var tl := left[1..];
    forall i, j | 0 <= i < j < |tl|
      ensures tl[i].invaderName != tl[j].invaderName
    {
      assert tl[i] == left[i + 1] && tl[j] == left[j + 1];
    }
    forall l | l in tl
      ensures l.invaderName != left[0].invaderName
    {
      var k :| 0 <= k < |tl| && tl[k] == l;
      assert left[k + 1] == l;
    }
  }

  /** At most one row with key in front of unique rows without key. */
  lemma UniqueKeysPrepend(head: seq<(Seed, Listing)>, tail: seq<(Seed, Listing)>, key: string)
    requires |head| <= 1 && forall p :: p in head ==> p.0.invaderName == key
    requires UniqueKeys(tail) && forall p :: p in tail ==> p.0.invaderName != key
    ensures UniqueKeys(head + tail)
  {
    var r := head + tail;
    forall i, j | 0 <= i < j < |r|
      ensures r[i].0.invaderName != r[j].0.invaderName
    {
      if i < |head| {
        assert r[i] == head[i] && r[j] == tail[j - |head|];
        assert head[i] in head && tail[j - |head|] in tail;
      } else {
        assert r[i] == tail[i - |head|] && r[j] == tail[j - |head|];
      }
    }
  }

  /** A sequence whose keys are pairwise distinct has as many rows as keys. */
  lemma {:induction false} UniqueKeysCount(r: seq<(Seed, Listing)>)
    requires UniqueKeys(r)
    ensures |JoinKeys(r)| == |r|
    decreases |r|
  {
    if |r| > 0 {
      var init := r[..|r| - 1];
      var key := r[|r| - 1].0.invaderName;
      UniqueKeysInit(r);
      UniqueKeysCount(init);
      assert JoinKeys(r) == JoinKeys(init) + {key} by {
        assert r == init + [r[|r| - 1]];
      }
    }
  }

  /** Without its last row, a sequence of unique keys keeps unique keys,
      and none of them is the last row's. */
  lemma UniqueKeysInit(r: seq<(Seed, Listing)>)
    requires UniqueKeys(r) && |r| > 0
    ensures UniqueKeys(r[..|r| - 1])
    ensures r[|r| - 1].0.invaderName !in JoinKeys(r[..|r| - 1])
  {
    var init := r[..|r| - 1];
    var key := r[|r| - 1].0.invaderName;
    forall i, j | 0 <= i < j < |init|
      ensures init[i].0.invaderName != init[j].0.invaderName
    {
      assert init[i] == r[i] && init[j] == r[j];
    }
    forall p | p in init
      ensures p.0.invaderName != key
    {
      var k :| 0 <= k < |init| && init[k] == p;
      assert r[k] == p;
    }
  }

  /** With unique names on both sides, the join has one row per common
      name. */
  lemma JoinSizeUnique(left: seq<Seed>, right: seq<Listing>)
    requires UniqueLeft(left) && UniqueRight(right)
    ensures |InnerJoin(left, right)| == |LeftKeys(left) * RightKeys(right)|
  {
    JoinUniqueKeys(left, right);
    UniqueKeysCount(InnerJoin(left, right));
    JoinKeysAreCommon(left, right);
  }

  /** The merged frame with `captured = False` and the image path column
      `generate_image_name(number)`. The map row's name is `invader_name`,
      its state the listing's. */
  function BuildDataset(left: seq<Seed>, right: seq<Listing>): (rows: seq<Render.Row>)
    ensures |rows| == |InnerJoin(left, right)|
    ensures forall k :: 0 <= k < |rows| ==> !rows[k].captured
    ensures forall k :: 0 <= k < |rows| ==> rows[k].imagePath == ImageName.GenerateImageName(rows[k].number)
    ensures forall k :: 0 <= k < |rows| ==> FromJoin(left, right, rows[k])
  {
    var joined := InnerJoin(left, right);
    var rows := seq(|joined|, k requires 0 <= k < |joined| => RowOf(joined[k]));
    RowsFromPairs(left, right, joined, rows);
    rows
  }

  /** row is what the route makes of a seed row l and a listing row m
      with the same name. */
  ghost predicate FromJoin(left: seq<Seed>, right: seq<Listing>, row: Render.Row) {
    exists l, m :: l in left && m in right && l.invaderName == m.name
      && row == Render.Row(l.invaderName, l.number, m.state, ImageName.GenerateImageName(l.number), false)
  }

  /** A merged row as the map builders see it. */
  function RowOf(p: (Seed, Listing)): Render.Row {
    Render.Row(p.0.invaderName, p.0.number, p.1.state, ImageName.GenerateImageName(p.0.number), false)
  }

  lemma RowsFromPairs(left: seq<Seed>, right: seq<Listing>, joined: seq<(Seed, Listing)>, rows: seq<Render.Row>)
    requires forall p :: p in joined ==> p.0 in left && p.1 in right && p.0.invaderName == p.1.name
    requires |rows| == |joined| && forall k :: 0 <= k < |joined| ==> rows[k] == RowOf(joined[k])
    ensures forall k :: 0 <= k < |rows| ==> FromJoin(left, right, rows[k])
  {
    forall k | 0 <= k < |rows|
      ensures FromJoin(left, right, rows[k])
    {
      var p := joined[k];
      assert p in joined;
      var l, m := p.0, p.1;
      assert l in left && m in right && l.invaderName == m.name;
      assert rows[k] == Render.Row(l.invaderName, l.number, m.state, ImageName.GenerateImageName(l.number), false);
    }
  }

  /** Since no merged row is captured, the captured layer is empty and every
      row is drawn among the points still to capture. */
  lemma {:induction false} NothingCaptured(rows: seq<Render.Row>)
    requires forall k :: 0 <= k < |rows| ==> !rows[k].captured
    ensures Render.Layer(rows, true) == []
    ensures |Render.Layer(rows, false)| == |rows|
    decreases |rows|
  {
    Render.LayerSizes(rows);
    if |rows| > 0 {
      NothingCaptured(rows[..|rows| - 1]);
    }
  }

  /** The attribution `index` passes to the map. */
  const OsmAttribution: string :=
    "&copy; <a href=\"https://www.openstreetmap.org/copyright\">OpenStreetMap</a> contributors"

  /** The `index` route up to the map: join, build, then
      `create_colored_map_filtered_captured` with the "CartoDB positron"
      tiles. Its try/except only guards the HTML conversion, so an error
      from map construction leaves the route. */
  function Index(left: seq<Seed>, right: seq<Listing>): (r: Result<Render.Map, Render.MapError>)
    ensures r.Failure? <==> |InnerJoin(left, right)| == 0
    ensures r.Failure? ==> r.error == Render.ZeroDivision
    ensures r.Success? ==> r.value.captured == [] && |r.value.toCapture| == |InnerJoin(left, right)|
    ensures r.Success? ==> r.value.toCapture == Render.Layer(BuildDataset(left, right), false)
  {
    var rows := BuildDataset(left, right);
    NothingCaptured(rows);
    Render.NotUrl("CartoDB positron");
    Render.CreateMap(Render.FilteredCaptured, rows, "CartoDB positron", Some(OsmAttribution))
  }

  /** One seed row and its listing entry give one green marker, still to
      capture, with its picture at img/PA_0001-grosplan.png. */
  lemma IndexExample()
    ensures Index([Seed("PA_0001", 1)], [Listing("PA_0001", Some("OK"))])
      == Success(Render.Map("CartoDB positron", None,
           [Render.Marker("PA_0001", 1, "img/PA_0001-grosplan.png", Render.Green, Render.Green)], []))
  {
    var left := [Seed("PA_0001", 1)];
    var right := [Listing("PA_0001", Some("OK"))];
    assert Matches(left[0], right) == [(left[0], right[0])];
    assert InnerJoin(left[1..], right) == [];
    assert InnerJoin(left, right) == [(left[0], right[0])];
    ImageName.ImageNameExample();
    var row := Render.Row("PA_0001", 1, Some("OK"), "img/PA_0001-grosplan.png", false);
    assert BuildDataset(left, right) == [row];
    assert Render.MarkerColor(false, Some("OK")) == Render.Green;
    var rows := [row];
    assert rows[..0] == [];
    assert Render.Layer(rows, false) == [Render.MakeMarker(row)];
    assert Render.Layer(rows, true) == [];
    Render.NotUrl("CartoDB positron");
  }
}

=== FILE: download.dfy ===
/** The download step of utils/extract_functions.py (`download_png`) and the
    batch loop of download_images.py. The save directory is a set of entry
    names; the network is an abstract outcome per request. */
module Download {
  import opened Wrappers
  import Extract

  /** `os.path.basename` on a POSIX path: everything after the last '/'. */
  function Basename(path: string): (name: string)
    ensures '/' !in name
    ensures |name| <= |path| && name == path[|path| - |name|..]
    ensures |name| < |path| ==> path[|path| - |name| - 1] == '/'
    decreases |path|
  {
    if |path| == 0 || path[|path| - 1] == '/' then []
    else
      var init := path[..|path| - 1];
      var b := Basename(init);
      assert path[|path| - |b| - 1..] == init[|init| - |b|..] + [path[|path| - 1]];
      assert |b| < |init| ==> path[|path| - |b| - 2] == init[|init| - |b| - 1];
      b + [path[|path| - 1]]
  }

  /** Whatever stands before the last '/' does not change the basename. */
  lemma {:induction false} BasenameAfterSlash(p: string, q: string)
    requires '/' in q || (|p| > 0 && p[|p| - 1] == '/')
    ensures Basename(p + q) == Basename(q)
    decreases |q|
  {
    var s := p + q;
    if |q| == 0 {
      assert s == p;
    } else if q[|q| - 1] != '/' {
      var q' := q[..|q| - 1];
      assert s[|s| - 1] == q[|q| - 1];
      assert s[..|s| - 1] == p + q';
      if '/' in q {
        var k :| 0 <= k < |q| && q[k] == '/';
        assert q'[k] == '/';
      }
      BasenameAfterSlash(p, q');
      BasenameUnfold(s);
    } else {
      assert s[|s| - 1] == '/';
    }
  }

  lemma BasenameUnfold(s: string)
    requires |s| > 0 && s[|s| - 1] != '/'
    ensures Basename(s) == Basename(s[..|s| - 1]) + [s[|s| - 1]]
  {
  }

  /** A name without '/' is its own basename. */
  lemma BasenameOfPlainName(name: string)
    requires '/' !in name
    ensures Basename(name) == name
  {
    var b := Basename(name);
    assert |b| == |name|;
  }

  /** The file name of `dir/name`: the basename of a path ending in
      `/name` is name, whatever the directory part. */
  lemma BasenameOfJoin(dir: string, name: string)
    requires '/' !in name
    ensures Basename(dir + "/" + name) == name
  {
    var s := dir + "/" + name;
    assert s == (dir + "/") + name;
    BasenameAfterSlash(dir + "/", name);
    BasenameOfPlainName(name);
  }

  /** The name an image URL is saved under is the basename of its relative
      part: the site root ends in '/'. */
  lemma ImageFileName(rel: string)
    ensures Basename(Extract.SiteRoot + rel) == Basename(rel)
  {
    var root := Extract.SiteRoot;
    assert root[|root| - 1] == '/';
    BasenameAfterSlash(root, rel);
  }

  /** `os.path.exists(os.path.join(save_dir, name))` for an existing
      save_dir whose entries are `entries`: the empty name joins to the
      directory itself, and "." and ".." always exist. */
  predicate PathExists(entries: set<string>, name: string) {
    name == "" || name == "." || name == ".." || name in entries
  }

  /** What `requests.get(url)` followed by `raise_for_status()` gives: a
      body, or a `RequestException` (network error or HTTP error status). */
  datatype Fetch = Fetched | Failed

  /** The directory after one call, and whether a request was sent. */
  datatype Step = Step(entries: set<string>, requested: bool)

  /** `download_png(url, save_dir)`: skip when the target exists, otherwise
      request and, on success only, write the file under its basename; a
      failed request is reported and leaves the directory as it was. */
  function DownloadPng(entries: set<string>, url: string, net: Fetch): (r: Step)
    ensures r.requested <==> !PathExists(entries, Basename(url))
    ensures entries <= r.entries && r.entries - entries <= {Basename(url)}
    ensures r.entries != entries <==> r.requested && net == Fetched
    ensures PathExists(r.entries, Basename(url)) <==> PathExists(entries, Basename(url)) || net == Fetched
  {
    var name := Basename(url);
    if PathExists(entries, name) then Step(entries, false)
    else match net
      case Failed => Step(entries, true)
      case Fetched => Step(entries + {name}, true)
  }

  /** Running the same URL twice, with outcomes a then b, leaves the
      directory as one run whose request succeeds when either did; with the
      same outcome twice, it equals running it once. */
  lemma DownloadTwice(entries: set<string>, url: string, a: Fetch, b: Fetch)
    ensures var first := DownloadPng(entries, url, a);
      DownloadPng(first.entries, url, b).entries
        == DownloadPng(entries, url, if a == Fetched || b == Fetched then Fetched else Failed).entries
    ensures var first := DownloadPng(entries, url, a);
      DownloadPng(first.entries, url, a).entries == first.entries
    ensures var first := DownloadPng(entries, url, a);
      a == Fetched ==> !DownloadPng(first.entries, url, b).requested
  {
  }

  /** The state of the loop of download_images.py: the directory, the
      number of requests sent, and whether a missing URL (NaN, on which
      `os.path.basename` raises an uncaught TypeError) stopped the script. */
  datatype Batch = Batch(entries: set<string>, requests: nat, aborted: bool)

  /** The URLs the loop reaches: those before the first missing one. */
  function Reached(urls: seq<Option<string>>): (r: seq<string>)
    ensures |r| <= |urls|
    ensures forall k :: 0 <= k < |r| ==> urls[k] == Some(r[k])
    ensures |r| < |urls| ==> urls[|r|].None?
  {
    if |urls| == 0 || urls[0].None? then []
    else [urls[0].value] + Reached(urls[1..])
  }

  /** The file names a list of URLs saves to. */
  function Names(urls: seq<string>): set<string> {
    if |urls| == 0 then {} else {Basename(urls[0])} + Names(urls[1..])
  }

  lemma NamesCons(urls: seq<Option<string>>, url: string)
    requires |urls| > 0 && urls[0] == Some(url)
    ensures Names(Reached(urls)) == {Basename(url)} + Names(Reached(urls[1..]))
  {
    var r := Reached(urls);
    assert r == [url] + Reached(urls[1..]);
    assert r[0] == url && r[1..] == Reached(urls[1..]);
  }

  /** `for url in urls: download_png(url, save_dir)`, with `net` standing
      for the answer the network gives each URL. */
  function DownloadAll(entries: set<string>, urls: seq<Option<string>>, net: string -> Fetch): (r: Batch)
    ensures entries <= r.entries && r.entries - entries <= Names(Reached(urls))
    ensures r.requests <= |Reached(urls)|
    ensures r.aborted <==> |Reached(urls)| < |urls|
    decreases |urls|
  {
    if |urls| == 0 then Batch(entries, 0, false)
    else match urls[0]
      case None => Batch(entries, 0, true)
      case Some(url) =>
        var step := DownloadPng(entries, url, net(url));
        var rest := DownloadAll(step.entries, urls[1..], net);
        NamesCons(urls, url);
        Batch(rest.entries, rest.requests + (if step.requested then 1 else 0), rest.aborted)
  }

  /** A batch over names that all exist already sends nothing and changes
      nothing. */
  lemma {:induction false} AllPresent(entries: set<string>, urls: seq<Option<string>>, net: string -> Fetch)
    requires forall url :: url in Reached(urls) ==> PathExists(entries, Basename(url))
    ensures DownloadAll(entries, urls, net).entries == entries
    ensures DownloadAll(entries, urls, net).requests == 0
    decreases |urls|
  {
    if |urls| > 0 && urls[0].Some? {
      assert Reached(urls) == [urls[0].value] + Reached(urls[1..]);
      AllPresent(entries, urls[1..], net);
    }
  }

  /** A failed request does not stop the batch: every reached URL whose
      request succeeds has its file afterwards, whatever happened to the
      others. */
  lemma {:induction false} AllFetched(entries: set<string>, urls: seq<Option<string>>, net: string -> Fetch)
    ensures forall url :: url in Reached(urls) && net(url) == Fetched ==>
      PathExists(DownloadAll(entries, urls, net).entries, Basename(url))
    decreases |urls|
  {
    if |urls| > 0 && urls[0].Some? {
      var url := urls[0].value;
      var step := DownloadPng(entries, url, net(url));
      assert Reached(urls) == [url] + Reached(urls[1..]);
      AllFetched(step.entries, urls[1..], net);
      assert DownloadAll(entries, urls, net).entries == DownloadAll(step.entries, urls[1..], net).entries;
    }
  }

  /** The file names of the URLs of a list whose request succeeds. */
  function FetchedNames(urls: seq<string>, net: string -> Fetch): set<string> {
    if |urls| == 0 then {}
    else (if net(urls[0]) == Fetched then {Basename(urls[0])} else {}) + FetchedNames(urls[1..], net)
  }

  /** A name is a fetched name exactly when some URL of the list with a
      successful request saves to it. */
  lemma {:induction false} FetchedNamesMembers(urls: seq<string>, net: string -> Fetch, name: string)
    ensures name in FetchedNames(urls, net) <==>
      exists url :: url in urls && net(url) == Fetched && Basename(url) == name
    decreases |urls|
  {
    if |urls| > 0 {
      FetchedNamesMembers(urls[1..], net, name);
      assert forall url :: url in urls <==> url == urls[0] || url in urls[1..];
    }
  }

  /** Conversely, every name a batch adds is the file of a reached URL whose
      request succeeded. */
  lemma {:induction false} AddedWereFetched(entries: set<string>, urls: seq<Option<string>>, net: string -> Fetch)
    ensures DownloadAll(entries, urls, net).entries - entries <= FetchedNames(Reached(urls), net)
    decreases |urls|
  {
    if |urls| > 0 && urls[0].Some? {
      var url := urls[0].value;
      var step := DownloadPng(entries, url, net(url));
      var r := Reached(urls);
      assert r == [url] + Reached(urls[1..]);
      assert r[0] == url && r[1..] == Reached(urls[1..]);
      AddedWereFetched(step.entries, urls[1..], net);
      assert DownloadAll(entries, urls, net).entries == DownloadAll(step.entries, urls[1..], net).entries;
    }
  }

  /** Every added name, as a statement about URLs. */
  lemma AddedNameSource(entries: set<string>, urls: seq<Option<string>>, net: string -> Fetch, name: string)
    requires name in DownloadAll(entries, urls, net).entries && name !in entries
    ensures exists url :: url in Reached(urls) && net(url) == Fetched && Basename(url) == name
  {
    AddedWereFetched(entries, urls, net);
    FetchedNamesMembers(Reached(urls), net, name);
  }

  /** A failed first download does not stop the second one: both are
      requested and only the second file is saved. */
  lemma FailureDoesNotStopBatch()
    ensures DownloadAll({}, [Some("r/x"), Some("r/y")], u => if u == "r/x" then Failed else Fetched)
      == Batch({"y"}, 2, false)
  {
    var net: string -> Fetch := u => if u == "r/x" then Failed else Fetched;
    var urls := [Some("r/x"), Some("r/y")];
    ExampleNames();
    assert net("r/x") == Failed && net("r/y") == Fetched;
    assert urls[1..] == [Some("r/y")] && urls[1..][1..] == [];
    assert DownloadPng({}, "r/x", Failed) == Step({}, true);
    assert DownloadPng({}, "r/y", Fetched) == Step({"y"}, true);
    assert DownloadAll({"y"}, [], net) == Batch({"y"}, 0, false);
    assert DownloadAll({}, urls[1..], net) == Batch({"y"}, 1, false);
  }

  lemma ExampleNames()
    ensures Basename("r/x") == "x" && Basename("r/y") == "y" && "r/x" != "r/y"
  {
    BasenameOfJoin("r", "x");
    BasenameOfJoin("r", "y");
    assert "r" + "/" + "x" == "r/x" && "r" + "/" + "y" == "r/y";
    assert "r/x"[2] != "r/y"[2];
  }

  /** Re-running the script after a run in which every request succeeded
      sends no request and leaves the directory as it was, whatever the
      network answers the second time. */
  lemma DownloadAllTwice(entries: set<string>, urls: seq<Option<string>>, net: string -> Fetch, net2: string -> Fetch)
    requires forall url :: url in Reached(urls) ==> net(url) == Fetched
    ensures var first := DownloadAll(entries, urls, net);
      var second := DownloadAll(first.entries, urls, net2);
      second.entries == first.entries && second.requests == 0 && second.aborted == first.aborted
  {
    AllFetched(entries, urls, net);
    AllPresent(DownloadAll(entries, urls, net).entries, urls, net2);
  }
}

=== FILE: extract.dfy ===
/** The field extractors of utils/extract_functions.py. Each regex is read
    twice: as a span predicate, the pattern written as split points of the
    input (what it means for the pattern to match there), and as a matcher that
    tries the alternatives in the order Python's backtracking engine does. A
    `...Leftmost` lemma per extractor ties the two together: the extractor
    succeeds exactly when the pattern matches somewhere, and it reports the
    leftmost start and, at that start, the split the engine prefers (greedy
    quantifiers take the longest run first, lazy ones the shortest). */
module Extract {
  import opened Wrappers
  import opened Text
  import opened Scan

  /** A cell of the scraped table: a string, or a missing value (NaN). */
  datatype Cell = Str(text: string) | Missing

  /** Two split points of a match inside the input. */
  datatype Cut = Cut(x: nat, y: nat)

  /** c comes first when the first split is tried shortest-first (lazy). */
  predicate LazyFirst(c: Cut, c': Cut) {
    c.x < c'.x || (c.x == c'.x && c.y <= c'.y)
  }

  /** c comes first when both splits are tried longest-first (greedy). */
  predicate GreedyFirst(c: Cut, c': Cut) {
    c.x > c'.x || (c.x == c'.x && c.y >= c'.y)
  }

  /** A literal occurs in a slice exactly where it occurs, inside the slice's
      bounds, in the whole text. */
  lemma StartsAtInSlice(s: string, g: nat, h: nat, k: nat, lit: string)
    requires g <= h <= |s|
    ensures StartsAt(s[g..h], k, lit) <==> g + k + |lit| <= h && StartsAt(s, g + k, lit)
  {
    if g + k + |lit| <= h {
      SliceOfSlice(s, g, h, k, k + |lit|);
    }
  }

  // ---------------------------------------------------------------------
  // extract_name: re.search(r"PA_\d+", chaine).group(0)

  /** s[i..j] is a match of `PA_\d+`. */
  predicate NameSpan(s: string, i: nat, j: nat) {
    StartsAt(s, i, "PA_") && i + 3 < j && Run(s, i + 3, j, IsDigit)
  }

  /** `PA_\d+` tried at i; `\d+` is greedy, so the match ends where the digit
      run does. */
  function NameAt(s: string, i: nat): (r: Option<nat>)
    ensures r.Some? <==> exists j: nat :: NameSpan(s, i, j)
    ensures r.Some? ==> NameSpan(s, i, r.value) && forall j: nat :: NameSpan(s, i, j) ==> j <= r.value
  {
    if StartsAt(s, i, "PA_") && i + 3 < |s| && IsDigit(s[i + 3]) then
      var e := RunEnd(s, i + 3, IsDigit);
      assert NameSpan(s, i, e);
      Some(e)
    else None
  }

  function NameMatcher(s: string): nat -> Option<nat> {
    (i: nat) => NameAt(s, i)
  }

  /** The match `re.search` reports: leftmost start, then longest. */
  ghost predicate FirstNameSpan(s: string, i: nat, j: nat) {
    && NameSpan(s, i, j)
    && (forall i': nat, j': nat :: NameSpan(s, i', j') ==> i <= i')
    && (forall j': nat :: NameSpan(s, i, j') ==> j' <= j)
  }

  lemma NameSearchIsFirst(s: string)
    ensures var m := NameSearch(s);
      && (m.None? <==> forall i: nat, j: nat :: !NameSpan(s, i, j))
      && (m.Some? ==> FirstNameSpan(s, m.value.start, m.value.value))
  {
    var m := Search(|s|, NameMatcher(s));
    forall i: nat, j: nat | NameSpan(s, i, j)
      ensures m.Some? && m.value.start <= i
    {
      assert NameMatcher(s)(i) == NameAt(s, i);
    }
    if m.Some? {
      assert NameMatcher(s)(m.value.start) == NameAt(s, m.value.start);
    }
  }

  /** `re.search` of the pattern: the first start at which the matcher
      succeeds, with the split it prefers there. */
  function NameSearch(s: string): Option<Found<nat>> {
    Search(|s|, NameMatcher(s))
  }

  /** extract_name: the artwork code `PA_<digits>`, or None. */
  function ExtractName(s: string): Option<string> {
    match NameSearch(s)
    case None => None
    case Some(Found(i, j)) => Some(s[i..j])
  }

  /** extract_name finds a code exactly when the text holds one, and returns
      the leftmost, longest one. */
  lemma ExtractNameLeftmost(s: string)
    ensures var r := ExtractName(s);
      && (r.Some? <==> exists i: nat, j: nat :: NameSpan(s, i, j))
      && (r.Some? ==> exists i: nat, j: nat :: FirstNameSpan(s, i, j) && r.value == s[i..j])
  {
    NameSearchIsFirst(s);
    var m := NameSearch(s);
    if m.Some? {
      var i, j := m.value.start, m.value.value;
      assert FirstNameSpan(s, i, j) && ExtractName(s).value == s[i..j];
    }
  }

  /** code occurs in s at i and the input has no further digit after it. */
  predicate IsMaximalCodeAt(s: string, i: nat, code: string) {
    StartsAt(s, i, code) && (i + |code| == |s| || !IsDigit(s[i + |code|]))
  }

  /** An extracted code is `PA_` and a non-empty digit run, cut from the input
      where the input's digits stop. */
  lemma ExtractNameShape(s: string)
    ensures var r := ExtractName(s);
      r.Some? ==>
        && |r.value| > 3 && r.value[..3] == "PA_" && AllDigits(r.value[3..])
        && exists i: nat :: IsMaximalCodeAt(s, i, r.value)
  {
    NameSearchIsFirst(s);
    var m := NameSearch(s);
    if m.Some? {
      var i, j := m.value.start, m.value.value;
      assert s[i..j][..3] == s[i..i + 3];
      assert IsMaximalCodeAt(s, i, s[i..j]);
    }
  }

  /** A code preceded by text without any 'P' and not followed by a digit is
      exactly what extract_name returns. */
  lemma ExtractNameFindsCode(pre: string, digits: string, post: string)
    requires 'P' !in pre
    requires |digits| > 0 && AllDigits(digits)
    requires |post| == 0 || !IsDigit(post[0])
    ensures ExtractName(pre + "PA_" + digits + post) == Some("PA_" + digits)
  {
    var s := pre + "PA_" + digits + post;
    var i0, j0 := |pre|, |pre| + 3 + |digits|;
    assert s[i0..i0 + 3] == "PA_";
    assert Run(s, i0 + 3, j0, IsDigit) by {
      assert forall k :: i0 + 3 <= k < j0 ==> s[k] == digits[k - i0 - 3];
    }
    assert forall k :: 0 <= k < i0 ==> s[k] == pre[k];
    assert j0 < |s| ==> s[j0] == post[0];
    NameFoundAt(s, i0, j0);
    assert s[i0..j0] == "PA_" + digits;
  }

  /** A match with no 'P' before it and no digit after it is the one
      `re.search` reports. */
  lemma NameFoundAt(s: string, i0: nat, j0: nat)
    requires NameSpan(s, i0, j0)
    requires forall k :: 0 <= k < i0 ==> s[k] != 'P'
    requires j0 == |s| || !IsDigit(s[j0])
    ensures NameSearch(s) == Some(Found(i0, j0))
  {
    NameSearchIsFirst(s);
    var m := NameSearch(s);
    var i, j := m.value.start, m.value.value;
    assert s[i] == s[i..i + 3][0] == 'P';
    assert i == i0;
    assert Run(s, i0 + 3, j, IsDigit);
  }

  // ---------------------------------------------------------------------
  // extract_points: int(re.search(r"(\d+)\s+pts", chaine).group(1))

  /** `(\d+)\s+pts` at i: the digits are s[i..c.x], the whitespace
      s[c.x..c.y], and `pts` follows at c.y. */
  predicate PointsSpan(s: string, i: nat, c: Cut) {
    i < c.x < c.y && Run(s, i, c.x, IsDigit) && Run(s, c.x, c.y, IsSpace) && StartsAt(s, c.y, "pts")
  }

  /** At a given start the split is forced: digits are never whitespace and
      'p' is neither, so no backtracking can move either boundary. */
  lemma PointsSpanForced(s: string, i: nat)
    ensures forall c: Cut :: PointsSpan(s, i, c) ==>
      i < |s| && c.x == RunEnd(s, i, IsDigit) && c.x < |s| && c.y == RunEnd(s, c.x, IsSpace)
  {
    forall c: Cut | PointsSpan(s, i, c)
      ensures i < |s| && c.x == RunEnd(s, i, IsDigit) && c.x < |s| && c.y == RunEnd(s, c.x, IsSpace)
    {
      DigitIsNotSpace(s[c.x]);
      assert s[c.y] == s[c.y..c.y + 3][0] == 'p';
    }
  }

  function PointsAt(s: string, i: nat): (r: Option<Cut>)
    ensures r.Some? <==> exists c: Cut :: PointsSpan(s, i, c)
    ensures r.Some? ==> PointsSpan(s, i, r.value) && forall c: Cut :: PointsSpan(s, i, c) ==> c == r.value
  {
    PointsSpanForced(s, i);
    if i < |s| && IsDigit(s[i]) then
      var k := RunEnd(s, i, IsDigit);
      if k < |s| && IsSpace(s[k]) then
        var w := RunEnd(s, k, IsSpace);
        if StartsAt(s, w, "pts") then
          assert PointsSpan(s, i, Cut(k, w));
          Some(Cut(k, w))
        else None
      else None
    else None
  }

  function PointsMatcher(s: string): nat -> Option<Cut> {
    (i: nat) => PointsAt(s, i)
  }

  ghost predicate FirstPointsSpan(s: string, i: nat, c: Cut) {
    && PointsSpan(s, i, c)
    && (forall i': nat, c': Cut :: PointsSpan(s, i', c') ==> i <= i')
    && (forall c': Cut :: PointsSpan(s, i, c') ==> c' == c)
  }

  lemma PointsSearchIsFirst(s: string)
    ensures var m := PointsSearch(s);
      && (m.None? <==> forall i: nat, c: Cut :: !PointsSpan(s, i, c))
      && (m.Some? ==> FirstPointsSpan(s, m.value.start, m.value.value))
  {
    var m := Search(|s|, PointsMatcher(s));
    forall i: nat, c: Cut | PointsSpan(s, i, c)
      ensures m.Some? && m.value.start <= i
    {
      assert PointsMatcher(s)(i) == PointsAt(s, i);
    }
    if m.Some? {
      assert PointsMatcher(s)(m.value.start) == PointsAt(s, m.value.start);
    }
  }

  /** `re.search` of the pattern: the first start at which the matcher
      succeeds, with the split it prefers there. */
  function PointsSearch(s: string): Option<Found<Cut>> {
    Search(|s|, PointsMatcher(s))
  }

  /** extract_points: the number before the leftmost `<digits> <spaces>pts`,
      or None. */
  function ExtractPoints(s: string): Option<nat> {
    match PointsSearch(s)
    case None => None
    case Some(Found(i, c)) => Some(DecimalValue(s[i..c.x]))
  }

  /** extract_points finds a number exactly when the text holds a match, and
      reads the digits of the leftmost one. */
  lemma ExtractPointsLeftmost(s: string)
    ensures var r := ExtractPoints(s);
      && (r.Some? <==> exists i: nat, c: Cut :: PointsSpan(s, i, c))
      && (r.Some? ==> exists i: nat, c: Cut :: FirstPointsSpan(s, i, c) && r.value == DecimalValue(s[i..c.x]))
  {
    PointsSearchIsFirst(s);
    var m := PointsSearch(s);
    if m.Some? {
      var i, c := m.value.start, m.value.value;
      assert FirstPointsSpan(s, i, c) && ExtractPoints(s).value == DecimalValue(s[i..c.x]);
    }
  }

  /** "123 pts" reads as 123, whatever precedes it as long as that has no
      digit. */
  lemma ExtractPointsReadsNumber(pre: string, n: nat, post: string)
    requires forall k :: 0 <= k < |pre| ==> !IsDigit(pre[k])
    ensures ExtractPoints(pre + Decimal(n) + " pts" + post) == Some(n)
  {
    var d := Decimal(n);
    var s := pre + d + " pts" + post;
    var c0 := PointsLayout(pre, d, post);
    PointsFoundAt(s, |pre|, c0);
    DecimalRoundTrip(n);
  }

  /** Where the match lies in `pre + d + " pts" + post`. */
  lemma PointsLayout(pre: string, d: string, post: string) returns (c0: Cut)
    requires forall k :: 0 <= k < |pre| ==> !IsDigit(pre[k])
    requires |d| > 0 && AllDigits(d)
    ensures var s := pre + d + " pts" + post;
      && PointsSpan(s, |pre|, c0) && s[|pre|..c0.x] == d
      && forall k :: 0 <= k < |pre| ==> !IsDigit(s[k])
  {
    var s := pre + d + " pts" + post;
    var i0 := |pre|;
    c0 := Cut(i0 + |d|, i0 + |d| + 1);
    assert forall k :: i0 <= k < c0.x ==> s[k] == d[k - i0];
    assert s[c0.x] == ' ';
    assert s[c0.y..c0.y + 3] == "pts";
    assert forall k :: 0 <= k < i0 ==> s[k] == pre[k];
    assert s[i0..c0.x] == d;
  }

  /** A match with no digit before it is the one `re.search` reports. */
  lemma PointsFoundAt(s: string, i0: nat, c0: Cut)
    requires PointsSpan(s, i0, c0)
    requires forall k :: 0 <= k < i0 ==> !IsDigit(s[k])
    ensures PointsSearch(s) == Some(Found(i0, c0))
  {
    PointsSearchIsFirst(s);
    var m := PointsSearch(s);
    var i := m.value.start;
    assert IsDigit(s[i]);
    assert i == i0;
  }

  // ---------------------------------------------------------------------
  // extract_name_and_points:
  //   re.search(r"<b>(PA_\d+)\s+\[(\d+)\s+pts\]</b>", chaine)

  /** Split points of `<b>(PA_\d+)\s+\[(\d+)\s+pts\]</b>`: code digits end at
      a, whitespace ends at b where `[` stands, point digits run from b + 1
      to c, whitespace ends at d where `pts]</b>` stands. */
  datatype Split = Split(a: nat, b: nat, c: nat, d: nat)

  predicate NamePointsSpan(s: string, i: nat, t: Split) {
    && StartsAt(s, i, "<b>PA_") && i + 6 < t.a < t.b
    && Run(s, i + 6, t.a, IsDigit) && Run(s, t.a, t.b, IsSpace)
    && t.b < |s| && s[t.b] == '['
    && t.b + 1 < t.c < t.d
    && Run(s, t.b + 1, t.c, IsDigit) && Run(s, t.c, t.d, IsSpace)
    && StartsAt(s, t.d, "pts]</b>")
  }

  /** Where each boundary of a match at i must lie: every run stops where
      the next class begins. */
  function NamePointsBounds(s: string, i: nat): Split
    requires i + 6 <= |s|
  {
    var a := RunEnd(s, i + 6, IsDigit);
    var b := RunEnd(s, a, IsSpace);
    var c := if b < |s| then RunEnd(s, b + 1, IsDigit) else b;
    Split(a, b, c, RunEnd(s, c, IsSpace))
  }

  /** Every boundary is forced, as in extract_points: digits are not
      whitespace, and neither is '[' or 'p'. */
  lemma NamePointsSpanForced(s: string, i: nat, t: Split)
    requires NamePointsSpan(s, i, t)
    ensures i + 6 <= |s| && t == NamePointsBounds(s, i)
  {
    DigitIsNotSpace(s[t.a]);
    DigitIsNotSpace(s[t.c]);
    assert s[t.d] == s[t.d..t.d + 8][0] == 'p';
    assert t.a == RunEnd(s, i + 6, IsDigit);
    assert t.b == RunEnd(s, t.a, IsSpace);
    assert t.c == RunEnd(s, t.b + 1, IsDigit);
  }

  /** The combined pattern tried at i. Since no boundary can move, the
      engine's backtracking has a single candidate to check. */
  function NamePointsAt(s: string, i: nat): (r: Option<Split>)
    ensures r.Some? <==> exists t: Split :: NamePointsSpan(s, i, t)
    ensures r.Some? ==> NamePointsSpan(s, i, r.value) && forall t: Split :: NamePointsSpan(s, i, t) ==> t == r.value
  {
    if i + 6 <= |s| && NamePointsSpan(s, i, NamePointsBounds(s, i)) then
      var r := NamePointsBounds(s, i);
      assert forall t: Split :: NamePointsSpan(s, i, t) ==> t == r by {
        forall t: Split | NamePointsSpan(s, i, t) ensures t == r { NamePointsSpanForced(s, i, t); }
      }
      Some(r)
    else
      assert forall t: Split :: !NamePointsSpan(s, i, t) by {
        forall t: Split | NamePointsSpan(s, i, t) ensures false { NamePointsSpanForced(s, i, t); }
      }
      None
  }

  function NamePointsMatcher(s: string): nat -> Option<Split> {
    (i: nat) => NamePointsAt(s, i)
  }

  ghost predicate FirstNamePointsSpan(s: string, i: nat, t: Split) {
    && NamePointsSpan(s, i, t)
    && (forall i': nat, t': Split :: NamePointsSpan(s, i', t') ==> i <= i')
    && (forall t': Split :: NamePointsSpan(s, i, t') ==> t' == t)
  }

  lemma NamePointsSearchIsFirst(s: string)
    ensures var m := NamePointsSearch(s);
      && (m.None? <==> forall i: nat, t: Split :: !NamePointsSpan(s, i, t))
      && (m.Some? ==> FirstNamePointsSpan(s, m.value.start, m.value.value))
  {
    var m := Search(|s|, NamePointsMatcher(s));
    forall i: nat, t: Split | NamePointsSpan(s, i, t)
      ensures m.Some? && m.value.start <= i
    {
      assert NamePointsMatcher(s)(i) == NamePointsAt(s, i);
    }
    if m.Some? {
      assert NamePointsMatcher(s)(m.value.start) == NamePointsAt(s, m.value.start);
    }
  }

  /** `re.search` of the pattern: the first start at which the matcher
      succeeds, with the split it prefers there. */
  function NamePointsSearch(s: string): Option<Found<Split>> {
    Search(|s|, NamePointsMatcher(s))
  }

  /** The pair extract_name_and_points returns when it matches; Python's
      `(None, None)` is `None` here, so the two parts come together or not at
      all. */
  datatype NamePoints = NamePoints(name: string, points: nat)

  /** extract_name_and_points: the code and points of the leftmost
      `<b>PA_n [k pts]</b>`. */
  function ExtractNameAndPoints(s: string): Option<NamePoints> {
    match NamePointsSearch(s)
    case None => None
    case Some(Found(i, t)) => Some(NamePoints(s[i + 3..t.a], DecimalValue(s[t.b + 1..t.c])))
  }

  /** extract_name_and_points succeeds exactly when the text holds a match,
      and reads both groups of the leftmost one. */
  lemma ExtractNameAndPointsLeftmost(s: string)
    ensures var r := ExtractNameAndPoints(s);
      && (r.Some? <==> exists i: nat, t: Split :: NamePointsSpan(s, i, t))
      && (r.Some? ==> exists i: nat, t: Split :: (FirstNamePointsSpan(s, i, t)
            && r.value.name == s[i + 3..t.a] && r.value.points == DecimalValue(s[t.b + 1..t.c])))
  {
    NamePointsSearchIsFirst(s);
    var m := NamePointsSearch(s);
    if m.Some? {
      var i, t := m.value.start, m.value.value;
      var r := ExtractNameAndPoints(s).value;
      assert FirstNamePointsSpan(s, i, t) && r.name == s[i + 3..t.a] && r.points == DecimalValue(s[t.b + 1..t.c]);
    }
  }

  /** The code part of a combined match is itself a whole extract_name match. */
  lemma ExtractNameAndPointsName(s: string)
    ensures var r := ExtractNameAndPoints(s);
      r.Some? ==> ExtractName(r.value.name) == Some(r.value.name)
  {
    NamePointsFound(s);
  }

  lemma NamePointsFound(s: string)
    ensures var m := NamePointsSearch(s);
      m.Some? ==> var i, t := m.value.start, m.value.value;
        ExtractName(s[i + 3..t.a]) == Some(s[i + 3..t.a])
  {
    NamePointsSearchIsFirst(s);
    var m := NamePointsSearch(s);
    if m.Some? {
      NamePointsCode(s, m.value.start, m.value.value);
    }
  }

  /** The text from `PA_` to the end of the digits of a combined match. */
  lemma NamePointsCode(s: string, i: nat, t: Split)
    requires NamePointsSpan(s, i, t)
    ensures ExtractName(s[i + 3..t.a]) == Some(s[i + 3..t.a])
  {
    var digits := s[i + 6..t.a];
    SliceOfSlice(s, i, i + 6, 3, 6);
    assert "<b>PA_"[3..6] == "PA_";
    SliceConcat(s, i + 3, i + 6, t.a);
    ExtractNameFindsCode([], digits, []);
    assert [] + "PA_" + digits + [] == s[i + 3..t.a];
  }

  // ---------------------------------------------------------------------
  // extract_district:
  //   re.search(r'<a href="javascript:lienv\(.+?\);">(.*?)<\/a>', chaine)

  const LinkOpen := "<a href=\"javascript:lienv("
  const LinkMid := ");\">"
  const LinkClose := "</a>"

  /** After the opening text at a: the lazy `.+?` covers s[a..c.x] (at least
      one character, no newline), `);">` stands at c.x, the group is
      s[c.x + 4..c.y] (no newline) and `</a>` stands at c.y. */
  predicate LinkSpan(s: string, a: nat, c: Cut) {
    && a < c.x && Run(s, a, c.x, NotNewline)
    && StartsAt(s, c.x, LinkMid)
    && Run(s, c.x + |LinkMid|, c.y, NotNewline)
    && StartsAt(s, c.y, LinkClose)
  }

  predicate DistrictSpan(s: string, i: nat, c: Cut) {
    StartsAt(s, i, LinkOpen) && LinkSpan(s, i + |LinkOpen|, c)
  }

  /** The lazy `(.*?)</a>`: the first `</a>` at or after q, provided no newline
      comes first; g is where the group starts. */
  function CloseFrom(s: string, g: nat, q: nat): (r: Option<nat>)
    requires Run(s, g, q, NotNewline)
    ensures r.Some? ==> q <= r.value && Run(s, g, r.value, NotNewline) && StartsAt(s, r.value, LinkClose)
    ensures r.Some? ==> forall q': nat :: q <= q' < r.value ==> !StartsAt(s, q', LinkClose)
    ensures r.None? ==> forall q': nat :: q <= q' && Run(s, g, q', NotNewline) ==> !StartsAt(s, q', LinkClose)
    decreases |s| - q
  {
    if StartsAt(s, q, LinkClose) then Some(q)
    else if q == |s| || s[q] == '\n' then None
    else CloseFrom(s, g, q + 1)
  }

  /** The lazy `.+?` from a, tried ending at p, then p + 1, and so on. */
  function LinkFrom(s: string, a: nat, p: nat): (r: Option<Cut>)
    requires a < p <= |s| + 1 && Run(s, a, p - 1, NotNewline)
    ensures r.Some? ==> p <= r.value.x && LinkSpan(s, a, r.value)
    ensures r.Some? ==> forall c: Cut :: LinkSpan(s, a, c) && p <= c.x ==> LazyFirst(r.value, c)
    ensures r.None? ==> forall c: Cut :: LinkSpan(s, a, c) ==> c.x < p
    decreases |s| + 1 - p
  {
    if p > |s| || s[p - 1] == '\n' then None
    else if StartsAt(s, p, LinkMid) then
      match CloseFrom(s, p + 4, p + 4)
      case Some(q) => Some(Cut(p, q))
      case None => LinkFrom(s, a, p + 1)
    else LinkFrom(s, a, p + 1)
  }

  function DistrictAt(s: string, i: nat): (r: Option<Cut>)
    ensures r.Some? <==> exists c: Cut :: DistrictSpan(s, i, c)
    ensures r.Some? ==> DistrictSpan(s, i, r.value) && forall c: Cut :: DistrictSpan(s, i, c) ==> LazyFirst(r.value, c)
  {
    if StartsAt(s, i, LinkOpen) then
      var r := LinkFrom(s, i + |LinkOpen|, i + |LinkOpen| + 1);
      assert r.Some? ==> DistrictSpan(s, i, r.value);
      r
    else None
  }

  function DistrictMatcher(s: string): nat -> Option<Cut> {
    (i: nat) => DistrictAt(s, i)
  }

  ghost predicate FirstDistrictSpan(s: string, i: nat, c: Cut) {
    && DistrictSpan(s, i, c)
    && (forall i': nat, c': Cut :: DistrictSpan(s, i', c') ==> i <= i')
    && (forall c': Cut :: DistrictSpan(s, i, c') ==> LazyFirst(c, c'))
  }

  lemma DistrictSearchIsFirst(s: string)
    ensures var m := DistrictSearch(s);
      && (m.None? <==> forall i: nat, c: Cut :: !DistrictSpan(s, i, c))
      && (m.Some? ==> FirstDistrictSpan(s, m.value.start, m.value.value))
  {
    var m := Search(|s|, DistrictMatcher(s));
    forall i: nat, c: Cut | DistrictSpan(s, i, c)
      ensures m.Some? && m.value.start <= i
    {
      assert DistrictMatcher(s)(i) == DistrictAt(s, i);
    }
    if m.Some? {
      assert DistrictMatcher(s)(m.value.start) == DistrictAt(s, m.value.start);
    }
  }

  /** `re.search` of the pattern: the first start at which the matcher
      succeeds, with the split it prefers there. */
  function DistrictSearch(s: string): Option<Found<Cut>> {
    Search(|s|, DistrictMatcher(s))
  }

  /** extract_district: the visible text of the first district link. */
  function ExtractDistrict(s: string): Option<string> {
    match DistrictSearch(s)
    case None => None
    case Some(Found(i, c)) => Some(s[c.x + |LinkMid|..c.y])
  }

  /** extract_district succeeds exactly when the text holds a district link,
      and returns the group of the leftmost match, shortest split first. */
  lemma ExtractDistrictLeftmost(s: string)
    ensures var r := ExtractDistrict(s);
      && (r.Some? <==> exists i: nat, c: Cut :: DistrictSpan(s, i, c))
      && (r.Some? ==> exists i: nat, c: Cut :: FirstDistrictSpan(s, i, c) && r.value == s[c.x + |LinkMid|..c.y])
  {
    DistrictSearchIsFirst(s);
    var m := DistrictSearch(s);
    if m.Some? {
      var i, c := m.value.start, m.value.value;
      assert FirstDistrictSpan(s, i, c) && ExtractDistrict(s).value == s[c.x + |LinkMid|..c.y];
    }
  }

  /** Cutting the group of a match short gives a match exactly when `</a>`
      stands at the new end. */
  lemma DistrictSpanEndsAtClose(s: string, i: nat, c: Cut, q: nat)
    requires DistrictSpan(s, i, c) && c.x + |LinkMid| <= q <= c.y
    ensures DistrictSpan(s, i, Cut(c.x, q)) <==> StartsAt(s, q, LinkClose)
  {
  }

  /** The group of the preferred match holds no `</a>`: a shorter group
      ending at one would have been preferred by the lazy `(.*?)`. */
  lemma DistrictGroupHasNoClose(s: string, i: nat, c: Cut, k: nat)
    requires FirstDistrictSpan(s, i, c)
    ensures !StartsAt(s[c.x + |LinkMid|..c.y], k, LinkClose)
  {
    var g := c.x + |LinkMid|;
    StartsAtInSlice(s, g, c.y, k, LinkClose);
    if g + k + |LinkClose| <= c.y {
      DistrictSpanEndsAtClose(s, i, c, g + k);
      assert !LazyFirst(c, Cut(c.x, g + k));
      assert !DistrictSpan(s, i, Cut(c.x, g + k));
    }
  }

  lemma DistrictGroupHasNoNewline(s: string, i: nat, c: Cut)
    requires DistrictSpan(s, i, c)
    ensures '\n' !in s[c.x + |LinkMid|..c.y]
  {
    var g := c.x + |LinkMid|;
    var t := s[g..c.y];
    forall k | 0 <= k < |t|
      ensures t[k] != '\n'
    {
      assert t[k] == s[g + k];
      assert NotNewline(s[g + k]);
    }
  }

  /** The lazy group stops at the first `</a>`: the district text holds no
      `</a>` and no line break. */
  lemma ExtractDistrictShortest(s: string)
    ensures var r := ExtractDistrict(s);
      r.Some? ==> '\n' !in r.value && forall k: nat :: !StartsAt(r.value, k, LinkClose)
  {
    DistrictGroupClean(s);
  }

  lemma DistrictGroupClean(s: string)
    ensures var m := DistrictSearch(s);
      m.Some? ==> var t := s[m.value.value.x + |LinkMid|..m.value.value.y];
        '\n' !in t && forall k: nat :: !StartsAt(t, k, LinkClose)
  {
    DistrictSearchIsFirst(s);
    var m := DistrictSearch(s);
    if m.Some? {
      var i, c := m.value.start, m.value.value;
      var t := s[c.x + |LinkMid|..c.y];
      forall k: nat
        ensures !StartsAt(t, k, LinkClose)
      {
        DistrictGroupHasNoClose(s, i, c, k);
      }
      DistrictGroupHasNoNewline(s, i, c);
    }
  }

  // ---------------------------------------------------------------------
  // extract_state: re.search(r'>\s*([^<]+)$', text, re.MULTILINE), stripped

  /** `$` under MULTILINE: the end of the text or just before a newline. */
  predicate LineEnd(s: string, p: nat) {
    p == |s| || (p < |s| && s[p] == '\n')
  }

  /** `>\s*([^<]+)$` at i: whitespace s[i + 1..c.x], group s[c.x..c.y]
      (non-empty, no '<'), `$` at c.y. */
  predicate StateSpan(s: string, i: nat, c: Cut) {
    && i < |s| && s[i] == '>'
    && Run(s, i + 1, c.x, IsSpace)
    && c.x < c.y && Run(s, c.x, c.y, NotLt)
    && LineEnd(s, c.y)
  }

  /** The greedy `[^<]+` backing off from p towards w until `$` holds. */
  function LineEndAtOrBefore(s: string, w: nat, p: nat): (r: Option<nat>)
    requires w <= p <= |s|
    ensures r.Some? ==> w < r.value <= p && LineEnd(s, r.value)
    ensures r.Some? ==> forall p': nat :: r.value < p' <= p ==> !LineEnd(s, p')
    ensures r.None? ==> forall p': nat :: w < p' <= p ==> !LineEnd(s, p')
    decreases p
  {
    if p <= w then None
    else if LineEnd(s, p) then Some(p)
    else LineEndAtOrBefore(s, w, p - 1)
  }

  /** The greedy `\s*` backing off from w towards i + 1. */
  function StateFrom(s: string, i: nat, w: nat): (r: Option<Cut>)
    requires i < |s| && s[i] == '>' && i + 1 <= w && Run(s, i + 1, w, IsSpace)
    ensures r.Some? ==> StateSpan(s, i, r.value) && r.value.x <= w
    ensures r.Some? ==> forall c: Cut :: StateSpan(s, i, c) && c.x <= w ==> GreedyFirst(r.value, c)
    ensures r.None? ==> forall c: Cut :: StateSpan(s, i, c) ==> w < c.x
    decreases w
  {
    var e := RunEnd(s, w, NotLt);
    match LineEndAtOrBefore(s, w, e)
    case Some(p) => Some(Cut(w, p))
    case None => if w == i + 1 then None else StateFrom(s, i, w - 1)
  }

  function StateAt(s: string, i: nat): (r: Option<Cut>)
    ensures r.Some? <==> exists c: Cut :: StateSpan(s, i, c)
    ensures r.Some? ==> StateSpan(s, i, r.value) && forall c: Cut :: StateSpan(s, i, c) ==> GreedyFirst(r.value, c)
  {
    if i < |s| && s[i] == '>' then StateFrom(s, i, RunEnd(s, i + 1, IsSpace)) else None
  }

  function StateMatcher(s: string): nat -> Option<Cut> {
    (i: nat) => StateAt(s, i)
  }

  ghost predicate FirstStateSpan(s: string, i: nat, c: Cut) {
    && StateSpan(s, i, c)
    && (forall i': nat, c': Cut :: StateSpan(s, i', c') ==> i <= i')
    && (forall c': Cut :: StateSpan(s, i, c') ==> GreedyFirst(c, c'))
  }

  lemma StateSearchIsFirst(s: string)
    ensures var m := StateSearch(s);
      && (m.None? <==> forall i: nat, c: Cut :: !StateSpan(s, i, c))
      && (m.Some? ==> FirstStateSpan(s, m.value.start, m.value.value))
  {
    var m := Search(|s|, StateMatcher(s));
    forall i: nat, c: Cut | StateSpan(s, i, c)
      ensures m.Some? && m.value.start <= i
    {
      assert StateMatcher(s)(i) == StateAt(s, i);
    }
    if m.Some? {
      assert StateMatcher(s)(m.value.start) == StateAt(s, m.value.start);
    }
  }

  /** `re.search` of the pattern: the first start at which the matcher
      succeeds, with the split it prefers there. */
  function StateSearch(s: string): Option<Found<Cut>> {
    Search(|s|, StateMatcher(s))
  }

  /** extract_state: the stripped text after the first '>' that is followed by
      '<'-free text up to a line end; None for a missing cell. */
  function ExtractState(cell: Cell): Option<string> {
    match cell
    case Missing => None
    case Str(s) =>
      match StateSearch(s)
      case None => None
      case Some(Found(i, c)) => Some(Strip(s[c.x..c.y]))
  }

  /** extract_state gives None for a missing cell; on text it succeeds exactly
      when the pattern matches, and strips the group of the leftmost match,
      longest whitespace first. */
  lemma ExtractStateLeftmost(cell: Cell)
    ensures cell.Missing? ==> ExtractState(cell).None?
    ensures var r := ExtractState(cell);
      cell.Str? ==> (r.Some? <==> exists i: nat, c: Cut :: StateSpan(cell.text, i, c))
    ensures var r := ExtractState(cell);
      cell.Str? && r.Some? ==>
        exists i: nat, c: Cut :: FirstStateSpan(cell.text, i, c) && r.value == Strip(cell.text[c.x..c.y])
  {
    if cell.Str? {
      var s := cell.text;
      StateSearchIsFirst(s);
      var m := StateSearch(s);
      if m.None? {
        assert ExtractState(cell).None?;
      } else {
        var i, c := m.value.start, m.value.value;
        assert ExtractState(cell) == Some(Strip(s[c.x..c.y]));
        assert FirstStateSpan(s, i, c);
      }
    }
  }

  /** The state holds no '<' and no surrounding whitespace (it may be empty). */
  lemma ExtractStateClean(cell: Cell)
    ensures var r := ExtractState(cell);
      r.Some? ==> '<' !in r.value && (|r.value| > 0 ==> !IsSpace(r.value[0]) && !IsSpace(r.value[|r.value| - 1]))
  {
    if cell.Str? {
      StateGroupClean(cell.text);
    }
  }

  lemma StateGroupClean(s: string)
    ensures var m := StateSearch(s);
      m.Some? ==> '<' !in Strip(s[m.value.value.x..m.value.value.y])
  {
    StateSearchIsFirst(s);
    var m := StateSearch(s);
    if m.Some? {
      var c := m.value.value;
      RunSlice(s, c.x, c.y, NotLt);
      StripKeepsOut(s[c.x..c.y], '<');
    }
  }

  // ---------------------------------------------------------------------
  // generate_image_url: str.extract(r'<img[^>]*src="([^"]+)"'), prefixed

  const SiteRoot := "https://www.invader-spotter.art/"

  /** The `src` value as an absolute URL on the site. */
  function Absolute(rel: string): string {
    SiteRoot + rel
  }

  /** `<img[^>]*src="([^"]+)"` at i: the tag text s[i + 4..c.x] holds no '>',
      `src="` stands at c.x, the group s[c.x + 5..c.y] is non-empty without
      '"', and '"' stands at c.y. */
  predicate ImageSpan(s: string, i: nat, c: Cut) {
    && StartsAt(s, i, "<img")
    && Run(s, i + 4, c.x, NotGt)
    && StartsAt(s, c.x, "src=\"")
    && c.x + 5 < c.y < |s| && Run(s, c.x + 5, c.y, NotQuote)
    && s[c.y] == '"'
  }

  /** The greedy `[^>]*` backing off from k towards i + 4 until `src="` and a
      closed non-empty value follow. */
  function SrcFrom(s: string, i: nat, k: nat): (r: Option<Cut>)
    requires StartsAt(s, i, "<img") && i + 4 <= k && Run(s, i + 4, k, NotGt)
    ensures r.Some? ==> ImageSpan(s, i, r.value) && r.value.x <= k
    ensures r.Some? ==> forall c: Cut :: ImageSpan(s, i, c) && c.x <= k ==> c.x < r.value.x || c == r.value
    ensures r.None? ==> forall c: Cut :: ImageSpan(s, i, c) ==> k < c.x
    decreases k
  {
    if StartsAt(s, k, "src=\"") && k + 5 < RunEnd(s, k + 5, NotQuote) < |s| then
      Some(Cut(k, RunEnd(s, k + 5, NotQuote)))
    else if k == i + 4 then None
    else SrcFrom(s, i, k - 1)
  }

  function ImageAt(s: string, i: nat): (r: Option<Cut>)
    ensures r.Some? <==> exists c: Cut :: ImageSpan(s, i, c)
    ensures r.Some? ==> ImageSpan(s, i, r.value) && forall c: Cut :: ImageSpan(s, i, c) ==> c.x < r.value.x || c == r.value
  {
    if StartsAt(s, i, "<img") then SrcFrom(s, i, RunEnd(s, i + 4, NotGt)) else None
  }

  function ImageMatcher(s: string): nat -> Option<Cut> {
    (i: nat) => ImageAt(s, i)
  }

  ghost predicate FirstImageSpan(s: string, i: nat, c: Cut) {
    && ImageSpan(s, i, c)
    && (forall i': nat, c': Cut :: ImageSpan(s, i', c') ==> i <= i')
    && (forall c': Cut :: ImageSpan(s, i, c') ==> c'.x < c.x || c' == c)
  }

  lemma ImageSearchIsFirst(s: string)
    ensures var m := ImageSearch(s);
      && (m.None? <==> forall i: nat, c: Cut :: !ImageSpan(s, i, c))
      && (m.Some? ==> FirstImageSpan(s, m.value.start, m.value.value))
  {
    var m := Search(|s|, ImageMatcher(s));
    forall i: nat, c: Cut | ImageSpan(s, i, c)
      ensures m.Some? && m.value.start <= i
    {
      assert ImageMatcher(s)(i) == ImageAt(s, i);
    }
    if m.Some? {
      assert ImageMatcher(s)(m.value.start) == ImageAt(s, m.value.start);
    }
  }

  /** `re.search` of the pattern: the first start at which the matcher
      succeeds, with the split it prefers there. */
  function ImageSearch(s: string): Option<Found<Cut>> {
    Search(|s|, ImageMatcher(s))
  }

  /** The absolute image URL of one first-column fragment: the site root
      followed by the `src` of the first `<img` tag that has one (the last
      `src="` inside that tag, since `[^>]*` is greedy); None for a fragment
      without one and for a missing cell. */
  function ImageUrl(cell: Cell): Option<string> {
    match cell
    case Missing => None
    case Str(s) =>
      match ImageSearch(s)
      case None => None
      case Some(Found(i, c)) => Some(Absolute(s[c.x + 5..c.y]))
  }

  /** A URL comes out exactly when the fragment has an `<img` tag with a
      `src`; it is the site root joined to the leftmost such value, the last
      `src="` in the tag. */
  lemma ImageUrlLeftmost(cell: Cell)
    ensures cell.Missing? ==> ImageUrl(cell).None?
    ensures var r := ImageUrl(cell);
      cell.Str? ==> (r.Some? <==> exists i: nat, c: Cut :: ImageSpan(cell.text, i, c))
    ensures var r := ImageUrl(cell);
      cell.Str? && r.Some? ==>
        exists i: nat, c: Cut :: FirstImageSpan(cell.text, i, c) && r.value == Absolute(cell.text[c.x + 5..c.y])
  {
    if cell.Str? {
      ImageTextLeftmost(cell.text);
    }
  }

  lemma ImageTextLeftmost(s: string)
    ensures var r := ImageUrl(Str(s));
      && (r.Some? <==> exists i: nat, c: Cut :: ImageSpan(s, i, c))
      && (r.Some? ==> exists i: nat, c: Cut :: FirstImageSpan(s, i, c) && r.value == Absolute(s[c.x + 5..c.y]))
  {
    ImageSearchIsFirst(s);
    var m := ImageSearch(s);
    if m.Some? {
      var i, c := m.value.start, m.value.value;
      assert FirstImageSpan(s, i, c) && ImageUrl(Str(s)).value == Absolute(s[c.x + 5..c.y]);
    }
  }

  /** generate_image_url over the first column: one entry per row, in row
      order. A row gets a URL exactly when its cell is text holding an
      `<img ... src="...">`; the URL is the site root joined to the leftmost
      such source, and missing cells stay None. */
  function GenerateImageUrl(column: seq<Cell>): (urls: seq<Option<string>>)
    ensures |urls| == |column|
    ensures forall k :: 0 <= k < |column| ==> UrlMeaning(column[k], urls[k])
  {
    ColumnUrls(column);
    seq(|column|, k requires 0 <= k < |column| => ImageUrl(column[k]))
  }

  /** ImageUrlLeftmost and ImageUrlShape for every cell of a column. */
  lemma ColumnUrls(column: seq<Cell>)
    ensures forall k :: 0 <= k < |column| ==> UrlMeaning(column[k], ImageUrl(column[k]))
  {
    forall k | 0 <= k < |column| {
      CellUrl(column[k]);
    }
  }

  /** What r means as the URL of cell: present exactly when the cell is
      text holding an image source, and then the site root joined to the
      leftmost one, a non-empty value without '"'. */
  ghost predicate UrlMeaning(cell: Cell, r: Option<string>) {
    && (r.Some? <==> cell.Str? && exists i: nat, c: Cut :: ImageSpan(cell.text, i, c))
    && (r.Some? ==> exists i: nat, c: Cut :: FirstImageSpan(cell.text, i, c) && r.value == Absolute(cell.text[c.x + 5..c.y]))
    && (r.Some? ==> |r.value| > |SiteRoot| && r.value[..|SiteRoot|] == SiteRoot && '"' !in r.value[|SiteRoot|..])
  }

  lemma CellUrl(cell: Cell)
    ensures UrlMeaning(cell, ImageUrl(cell))
  {
    ImageUrlLeftmost(cell);
    ImageUrlShape(cell);
  }

  /** The relative part of an image URL is a non-empty text without '"'. */
  lemma ImageUrlShape(cell: Cell)
    ensures var r := ImageUrl(cell);
      r.Some? ==> |r.value| > |SiteRoot| && r.value[..|SiteRoot|] == SiteRoot && '"' !in r.value[|SiteRoot|..]
  {
    if cell.Str? {
      var s := cell.text;
      ImageSearchIsFirst(s);
      var m := ImageSearch(s);
      if m.Some? {
        ImageValueShape(s, m.value.start, m.value.value);
      }
    }
  }

  lemma ImageValueShape(s: string, i: nat, c: Cut)
    requires ImageSpan(s, i, c)
    ensures var r := Absolute(s[c.x + 5..c.y]);
      |r| > |SiteRoot| && r[..|SiteRoot|] == SiteRoot && '"' !in r[|SiteRoot|..]
  {
    var rel := s[c.x + 5..c.y];
    RunSlice(s, c.x + 5, c.y, NotQuote);
    assert (SiteRoot + rel)[|SiteRoot|..] == rel;
    assert (SiteRoot + rel)[..|SiteRoot|] == SiteRoot;
  }
}

=== FILE: imagename.dfy ===
/** `generate_image_name` of app.py: the local path of an artwork's picture,
    built from its number with Python's `"{:04d}"` format. */
module ImageName {
  import opened Wrappers
  import opened Text

  const Prefix: string := "img/PA_"
  const Suffix: string := "-grosplan.png"

  /** t padded on the left with '0' up to width characters; never cut. */
  function ZeroFill(t: string, width: nat): (r: string)
    ensures |r| == if |t| < width then width else |t|
    ensures r[|r| - |t|..] == t
    ensures forall j :: 0 <= j < |r| - |t| ==> r[j] == '0'
  {
    if |t| < width then Zeros(width - |t|) + t else t
  }

  /** Python's `"{:0<width>d}".format(n)`: the decimal numeral of n, with the
      '-' of a negative n counted in the width and the zeros put after it. */
  function FormatZeroPadded(n: int, width: nat): (r: string)
    ensures |r| >= width
    ensures n >= 0 ==> |r| == if |Decimal(n)| < width then width else |Decimal(n)|
    ensures n < 0 ==> |r| == if |Decimal(-n)| + 1 < width then width else |Decimal(-n)| + 1
    ensures n >= 0 ==> AllDigits(r) && DecimalValue(r) == n
    ensures n < 0 ==> |r| > 1 && r[0] == '-' && AllDigits(r[1..]) && DecimalValue(r[1..]) == -n
  {
    if n >= 0 then
      DecimalRoundTrip(n);
      ZeroFillValue(Decimal(n), width);
      ZeroFill(Decimal(n), width)
    else
      var w := if width > 0 then width - 1 else 0;
      DecimalRoundTrip(-n);
      ZeroFillValue(Decimal(-n), w);
      assert ("-" + ZeroFill(Decimal(-n), w))[1..] == ZeroFill(Decimal(-n), w);
      "-" + ZeroFill(Decimal(-n), w)
  }

  /** Padding with zeros keeps a numeral a numeral of the same value. */
  lemma ZeroFillValue(t: string, width: nat)
    requires AllDigits(t)
    ensures AllDigits(ZeroFill(t, width)) && DecimalValue(ZeroFill(t, width)) == DecimalValue(t)
  {
    var k := if |t| < width then width - |t| else 0;
    LeadingZeros(k, t);
    assert ZeroFill(t, width) == Zeros(k) + t;
  }

  /** `generate_image_name(number)`. */
  function GenerateImageName(number: int): (path: string)
    ensures |path| >= |Prefix| + 4 + |Suffix|
    ensures path[..|Prefix|] == Prefix && path[|path| - |Suffix|..] == Suffix
  {
    Prefix + FormatZeroPadded(number, 4) + Suffix
  }

  /** Reads back what FormatZeroPadded writes: an optional '-' followed by
      ASCII digits, leading zeros allowed. */
  function ParseInt(t: string): (r: Option<int>)
    ensures r.Some? <==> (|t| > 0 && AllDigits(t)) || (|t| > 1 && t[0] == '-' && AllDigits(t[1..]))
  {
    if |t| > 1 && t[0] == '-' && AllDigits(t[1..]) then Some(-(DecimalValue(t[1..]) as int))
    else if |t| > 0 && AllDigits(t) then Some(DecimalValue(t))
    else None
  }

  /** Reads the number back out of an image path; None for a path of
      another shape. */
  function ParseImageName(path: string): (r: Option<int>)
    ensures r.Some? ==> |path| > |Prefix| + |Suffix| && path[..|Prefix|] == Prefix && path[|path| - |Suffix|..] == Suffix
  {
    if |path| > |Prefix| + |Suffix| && path[..|Prefix|] == Prefix && path[|path| - |Suffix|..] == Suffix then
      ParseInt(path[|Prefix|..|path| - |Suffix|])
    else None
  }

  /** The number can always be read back from the path. */
  lemma ImageNameRoundTrip(number: int)
    ensures ParseImageName(GenerateImageName(number)) == Some(number)
  {
    var mid := FormatZeroPadded(number, 4);
    var path := GenerateImageName(number);
    assert path[|Prefix|..|path| - |Suffix|] == mid;
    if number >= 0 {
      assert mid[0] != '-' by {
        assert IsDigit(mid[0]);
      }
    }
  }

  /** Distinct numbers give distinct paths, for every integer. */
  lemma ImageNameInjective(m: int, n: int)
    ensures GenerateImageName(m) == GenerateImageName(n) ==> m == n
  {
    ImageNameRoundTrip(m);
    ImageNameRoundTrip(n);
  }

  /** For the numbers 0 to 9999 the number field is exactly four digits
      and the path exactly 24 characters. */
  lemma ImageNameFourDigits(number: int)
    requires 0 <= number <= 9999
    ensures var mid := FormatZeroPadded(number, 4);
      |mid| == 4 && AllDigits(mid) && DecimalValue(mid) == number
    ensures |GenerateImageName(number)| == 24
  {
    DecimalLength(number);
  }

  /** From 10000 on, "{:04d}" pads nothing and cuts nothing: the field is
      the plain numeral. */
  lemma ImageNameNoTruncation(number: int)
    requires number >= 10000
    ensures FormatZeroPadded(number, 4) == Decimal(number)
    ensures |GenerateImageName(number)| > 24
  {
    DecimalLength(number);
  }

  lemma ImageNameExample()
    ensures GenerateImageName(1) == "img/PA_0001-grosplan.png"
  {
    assert Decimal(1) == "1";
    assert ZeroFill("1", 4) == "0001" by {
      assert Zeros(3) == "000";
    }
    assert FormatZeroPadded(1, 4) == "0001";
  }

  /** The sign counts in the width and the zeros go after it: -5 gives
      "-005", as `"{:04d}".format(-5)` does. */
  lemma FormatNegativeExample()
    ensures FormatZeroPadded(-5, 4) == "-005"
    ensures GenerateImageName(-5) == "img/PA_-005-grosplan.png"
  {
    var d := Decimal(5);
    assert d == "5" by {
      assert d == [DigitChar(5)];
    }
    var z := ZeroFill(d, 3);
    assert z == "005" by {
      assert z == Zeros(2) + d;
      assert Zeros(2) == "00";
    }
    var f := FormatZeroPadded(-5, 4);
    assert f == "-" + z;
    assert f == "-005";
    assert GenerateImageName(-5) == Prefix + f + Suffix;
  }
}

=== FILE: render.dfy ===
/** The decision rules inside the two map builders of app.py,
    `create_colored_map_filtered_captured` and
    `create_colored_map_interactive_capture`: the marker colour, the layer
    each marker goes to, the tile/attribution check and the Instagram tag.
    Coordinates, popups and folium objects are not modelled. */
module Render {
  import opened Wrappers
  import opened Text

  /** The colour names the builders pass to folium. */
  datatype Color = Green | Yellow | Black | Orange | Red | Gray | LightGray | Blue

  /** The `state_colors` table; the key None is Python's None. Blue is kept
      for captured markers, and light gray only marks a missing state. */
  function StateColors(): (table: map<Option<string>, Color>)
    ensures None in table && table[None] == LightGray
    ensures forall k :: k in table ==> table[k] != Blue
    ensures forall k :: k in table && k != None ==> table[k] != LightGray
  {
    map[
      Some("OK") := Green,
      Some("Un peu d\U{e9}grad\U{e9}") := Yellow,
      Some("D\U{e9}truit !") := Black,
      Some("D\U{e9}grad\U{e9}") := Orange,
      Some("Tr\U{e8}s d\U{e9}grad\U{e9}") := Red,
      Some("Non visible") := Gray,
      None := LightGray
    ]
  }

  /** One row of the data frame the builders read. A state that is not a
      string (NaN from an empty spreadsheet cell) is None, which the table
      sends to the same colour as a missing key. */
  datatype Row = Row(name: string, number: int, state: Option<string>, imagePath: string, captured: bool)

  /** What a circle on the map carries that the model tracks. */
  datatype Marker = Marker(name: string, number: int, imagePath: string, fill: Color, border: Color)

  /** `'blue' if captured else state_colors.get(state, 'lightgray')`. */
  function MarkerColor(captured: bool, state: Option<string>): (c: Color)
    ensures c == Blue <==> captured
  {
    if captured then Blue
    else if state in StateColors() then StateColors()[state]
    else LightGray
  }

  /** The legend read backwards: the condition an uncaptured marker's colour
      stands for; None for the colours that name no condition. */
  function LegendState(c: Color): (state: Option<string>)
    ensures state.Some? ==> state in StateColors() && StateColors()[state] == c
  {
    match c
    case Green => Some("OK")
    case Yellow => Some("Un peu d\U{e9}grad\U{e9}")
    case Black => Some("D\U{e9}truit !")
    case Orange => Some("D\U{e9}grad\U{e9}")
    case Red => Some("Tr\U{e8}s d\U{e9}grad\U{e9}")
    case Gray => Some("Non visible")
    case LightGray => None
    case Blue => None
  }

  /** Captured wins over the condition; otherwise a known condition gets
      its own colour, which the legend reads back, and any other value
      gets light gray. */
  lemma MarkerColorRules(captured: bool, state: Option<string>)
    ensures captured ==> MarkerColor(captured, state) == Blue
    ensures !captured && state.Some? && state in StateColors() ==> LegendState(MarkerColor(captured, state)) == state
    ensures !captured && state !in StateColors() ==> MarkerColor(captured, state) == LightGray
    ensures !captured && state == None ==> MarkerColor(captured, state) == LightGray
    ensures !captured ==> MarkerColor(captured, state) in StateColors().Values
  {
    if !captured && state in StateColors() {
      assert StateColors()[state] in StateColors().Values;
    }
    if !captured && state !in StateColors() {
      assert StateColors()[None] == LightGray;
    }
  }

  lemma MarkerColorExamples()
    ensures MarkerColor(false, Some("OK")) == Green
    ensures MarkerColor(false, Some("D\U{e9}truit !")) == Black
    ensures MarkerColor(false, Some("ok")) == LightGray
    ensures MarkerColor(true, Some("OK")) == Blue
  {
    assert Some("ok") !in StateColors();
  }

  /** The circle built for one row: fill and border are worked out by the
      same rule, so they always agree. */
  function MakeMarker(row: Row): (m: Marker)
    ensures m.fill == m.border
    ensures m.fill == Blue <==> row.captured
    ensures m.fill == MarkerColor(row.captured, row.state)
    ensures m.name == row.name && m.number == row.number && m.imagePath == row.imagePath
  {
    var fill := MarkerColor(row.captured, row.state);
    var border := MarkerColor(row.captured, row.state);
    Marker(row.name, row.number, row.imagePath, fill, border)
  }

  /** The markers of the layer for captured == flag, in row order. */
  function Layer(rows: seq<Row>, flag: bool): (layer: seq<Marker>)
    ensures |layer| <= |rows|
    ensures forall k :: 0 <= k < |layer| ==> (layer[k].fill == Blue <==> flag)
    decreases |rows|
  {
    if |rows| == 0 then []
    else
      var last := rows[|rows| - 1];
      Layer(rows[..|rows| - 1], flag) + (if last.captured == flag then [MakeMarker(last)] else [])
  }

  /** A marker is in a layer exactly when some row with that flag gave it. */
  lemma {:induction false} LayerContents(rows: seq<Row>, flag: bool, m: Marker)
    ensures m in Layer(rows, flag) <==> exists k :: 0 <= k < |rows| && rows[k].captured == flag && m == MakeMarker(rows[k])
    decreases |rows|
  {
    if |rows| > 0 {
      var init := rows[..|rows| - 1];
      LayerContents(init, flag, m);
      assert forall k :: 0 <= k < |init| ==> init[k] == rows[k];
    }
  }

  /** Every row goes to exactly one of the two layers. */
  lemma {:induction false} LayerSizes(rows: seq<Row>)
    ensures |Layer(rows, true)| + |Layer(rows, false)| == |rows|
    decreases |rows|
  {
    if |rows| > 0 {
      LayerSizes(rows[..|rows| - 1]);
    }
  }

  /** The loop of both builders: each row's circle is added to the
      captured layer when the row is captured and to the layer of points
      still to capture otherwise. */
  method BuildLayers(rows: seq<Row>) returns (toCapture: seq<Marker>, captured: seq<Marker>)
    ensures toCapture == Layer(rows, false) && captured == Layer(rows, true)
    ensures |toCapture| + |captured| == |rows|
  {
    toCapture, captured := [], [];
    var i := 0;
    while i < |rows|
      invariant 0 <= i <= |rows|
      invariant toCapture == Layer(rows[..i], false)
      invariant captured == Layer(rows[..i], true)
      invariant |toCapture| + |captured| == i
    {
      var m := MakeMarker(rows[i]);
      assert rows[..i + 1][..i] == rows[..i];
      if rows[i].captured {
        captured := captured + [m];
      } else {
        toCapture := toCapture + [m];
      }
      i := i + 1;
    }
    assert rows[..|rows|] == rows;
  }

  /** `name.replace(c, "")`. */
  function RemoveChar(s: string, c: char): (r: string)
    ensures c !in r
    ensures forall d :: d != c ==> multiset(r)[d] == multiset(s)[d]
    ensures |r| <= |s|
  {
    if |s| == 0 then []
    else
      assert s == [s[0]] + s[1..];
      (if s[0] == c then [] else [s[0]]) + RemoveChar(s[1..], c)
  }

  /** The Instagram tag of the popup link:
      `name.replace("#", "").replace(" ", "")`. */
  function InstagramTag(name: string): (tag: string)
    ensures '#' !in tag && ' ' !in tag
    ensures forall d :: d != '#' && d != ' ' ==> multiset(tag)[d] == multiset(name)[d]
  {
    var once := RemoveChar(name, '#');
    assert multiset(once)['#'] == 0;
    var twice := RemoveChar(once, ' ');
    assert multiset(twice)['#'] == 0;
    twice
  }

  /** A single left-to-right pass that keeps every character other than
      '#' and ' '. */
  function KeepTagChars(s: string): string {
    if |s| == 0 then []
    else (if s[0] == '#' || s[0] == ' ' then [] else [s[0]]) + KeepTagChars(s[1..])
  }

  /** The two `replace` calls in a row remove the same characters as one
      pass, and keep the others in order. */
  lemma {:induction false} InstagramTagSinglePass(s: string)
    ensures InstagramTag(s) == KeepTagChars(s)
    decreases |s|
  {
    if |s| > 0 {
      InstagramTagSinglePass(s[1..]);
      var once := RemoveChar(s, '#');
      if s[0] == '#' {
        assert once == RemoveChar(s[1..], '#');
      } else {
        assert once == [s[0]] + RemoveChar(s[1..], '#');
        assert once[1..] == RemoveChar(s[1..], '#');
      }
    }
  }

  /** Removing a character that is not there changes nothing. */
  lemma {:induction false} RemoveAbsent(s: string, c: char)
    requires c !in s
    ensures RemoveChar(s, c) == s
    decreases |s|
  {
    if |s| > 0 {
      assert c !in s[1..] by {
        assert forall k :: 0 <= k < |s| - 1 ==> s[1..][k] == s[k + 1];
      }
      RemoveAbsent(s[1..], c);
    }
  }

  /** Sanitising a tag again leaves it as it is. */
  lemma InstagramTagIdempotent(name: string)
    ensures InstagramTag(InstagramTag(name)) == InstagramTag(name)
  {
    var tag := InstagramTag(name);
    RemoveAbsent(tag, '#');
    RemoveAbsent(tag, ' ');
  }

  /** The two builders. */
  datatype Variant = FilteredCaptured | InteractiveCapture

  /** The exceptions map construction can raise: `sum(latitudes) /
      len(latitudes)` on no rows (only `create_colored_map_filtered_captured`
      computes the centre without a default), and the attribution check. */
  datatype MapError = ZeroDivision | MissingAttribution

  /** The map as far as the model follows it: tiles, the attribution passed
      with URL tiles, and the two marker layers. */
  datatype Map = Map(tiles: string, attr: Option<string>, toCapture: seq<Marker>, captured: seq<Marker>)

  /** `tiles.startswith('http://') or tiles.startswith('https://')`. */
  predicate IsUrl(tiles: string) {
    StartsAt(tiles, 0, "http://") || StartsAt(tiles, 0, "https://")
  }

  /** A tile-set name that does not start with 'h' is no URL. */
  lemma NotUrl(tiles: string)
    requires |tiles| > 0 && tiles[0] != 'h'
    ensures !IsUrl(tiles)
  {
    if |tiles| >= 7 {
      assert tiles[0..7][0] == tiles[0];
    }
    if |tiles| >= 8 {
      assert tiles[0..8][0] == tiles[0];
    }
  }

  /** Python truthiness of the `attr` argument: neither None nor "". */
  predicate Truthy(attr: Option<string>) {
    attr.Some? && attr.value != ""
  }

  /** Map construction up to the markers: the centre, then the tile check,
      then the layers. */
  function CreateMap(variant: Variant, rows: seq<Row>, tiles: string, attr: Option<string>): (r: Result<Map, MapError>)
    ensures r.Failure? <==> (variant == FilteredCaptured && |rows| == 0) || (IsUrl(tiles) && !Truthy(attr))
    ensures r.Failure? && r.error == MissingAttribution ==> IsUrl(tiles) && !Truthy(attr)
    ensures variant == FilteredCaptured && |rows| == 0 ==> r == Failure(ZeroDivision)
    ensures r.Success? ==> r.value.captured == Layer(rows, true) && r.value.toCapture == Layer(rows, false)
    ensures r.Success? ==> r.value.tiles == tiles && (r.value.attr.Some? <==> IsUrl(tiles))
    ensures r.Success? ==> |r.value.toCapture| + |r.value.captured| == |rows|
    ensures r.Success? ==> forall m :: m in r.value.captured ==> m.fill == Blue
    ensures r.Success? ==> forall m :: m in r.value.toCapture ==> m.fill != Blue
  {
    if variant == FilteredCaptured && |rows| == 0 then Failure(ZeroDivision)
    else if IsUrl(tiles) && !Truthy(attr) then Failure(MissingAttribution)
    else
      LayerSizes(rows);
      Success(Map(tiles, if IsUrl(tiles) then attr else None, Layer(rows, false), Layer(rows, true)))
  }

  /** The attribution check only concerns URL tiles: a tile-set name never
      raises it, and URL tiles with a non-empty attribution never do. */
  lemma TileCheck(variant: Variant, rows: seq<Row>, tiles: string, attr: Option<string>)
    ensures !IsUrl(tiles) ==> CreateMap(variant, rows, tiles, attr) != Failure(MissingAttribution)
    ensures Truthy(attr) ==> CreateMap(variant, rows, tiles, attr) != Failure(MissingAttribution)
    ensures IsUrl(tiles) && !Truthy(attr) && (variant == InteractiveCapture || |rows| > 0) ==>
      CreateMap(variant, rows, tiles, attr) == Failure(MissingAttribution)
    ensures variant == InteractiveCapture && (!IsUrl(tiles) || Truthy(attr)) ==> CreateMap(variant, rows, tiles, attr).Success?
  {
  }

  lemma TileCheckExamples()
    ensures IsUrl("https://tile.example/{z}/{x}/{y}.png") && !IsUrl("CartoDB positron")
    ensures !Truthy(Some("")) && !Truthy(None) && Truthy(Some("OSM"))
  {
    assert "https://tile.example/{z}/{x}/{y}.png"[0..8] == "https://";
    assert "CartoDB positron"[0] != 'h';
  }
}

=== FILE: scan.dfy ===
/** Python's `re.search`: try the pattern at each start position in turn,
    left to right, and keep the first position where it matches. */
module Scan {
  import opened Wrappers

  /** A match: where it starts and what the matcher reported there. */
  datatype Found<T> = Found(start: nat, value: T)

  /** The first position in [from, limit] at which matchAt succeeds. */
  function SearchFrom<T>(limit: nat, from: nat, matchAt: nat -> Option<T>): (r: Option<Found<T>>)
    requires from <= limit + 1
    ensures r.Some? ==> from <= r.value.start <= limit && matchAt(r.value.start) == Some(r.value.value)
    ensures r.Some? ==> forall j :: from <= j < r.value.start ==> matchAt(j).None?
    ensures r.None? ==> forall j :: from <= j <= limit ==> matchAt(j).None?
    decreases limit + 1 - from
  {
    if from > limit then None
    else match matchAt(from)
      case Some(v) => Some(Found(from, v))
      case None => SearchFrom(limit, from + 1, matchAt)
  }

  /** Search of a whole string of length `limit`, as `re.search` does: the
      empty tail position is tried too. */
  function Search<T>(limit: nat, matchAt: nat -> Option<T>): (r: Option<Found<T>>)
    ensures r.Some? ==> r.value.start <= limit && matchAt(r.value.start) == Some(r.value.value)
    ensures r.Some? ==> forall j: nat :: j < r.value.start ==> matchAt(j).None?
    ensures r.None? ==> forall j: nat :: j <= limit ==> matchAt(j).None?
  {
    SearchFrom(limit, 0, matchAt)
  }
}

=== FILE: text.dfy ===
/** Characters, runs and decimal numerals, with the meaning Python 3 gives them
    on `str` values: `\d`, `\s`, `int(...)`, `str.strip()` and `"{:0Nd}"`. */
module Text {

  /** The regex class `\d`, restricted to the ASCII digits. */
  predicate IsDigit(c: char) {
    '0' <= c <= '9'
  }

  /** `str.isspace`, which is also the regex class `\s` and what a bare
      `str.strip()` removes. */
  predicate IsSpace(c: char) {
    || ('\t' <= c <= '\r')
    || ('\U{1c}' <= c <= ' ')
    || c == '\U{85}' || c == '\U{a0}' || c == '\U{1680}'
    || ('\U{2000}' <= c <= '\U{200a}')
    || c == '\U{2028}' || c == '\U{2029}' || c == '\U{202f}'
    || c == '\U{205f}' || c == '\U{3000}'
  }

  /** The regex `.` without the DOTALL flag. */
  predicate NotNewline(c: char) {
    c != '\n'
  }

  predicate NotLt(c: char) {
    c != '<'
  }

  predicate NotGt(c: char) {
    c != '>'
  }

  predicate NotQuote(c: char) {
    c != '"'
  }

  lemma DigitIsNotSpace(c: char)
    ensures IsDigit(c) ==> !IsSpace(c)
  {
  }

  /** s[a..b] lies inside s and every character of it satisfies p. */
  predicate Run(s: string, a: nat, b: nat, p: char -> bool) {
    a <= b <= |s| && forall j :: a <= j < b ==> p(s[j])
  }

  /** Where a greedy `p*` starting at a stops: the longest run of p from a. */
  function RunEnd(s: string, a: nat, p: char -> bool): (e: nat)
    requires a <= |s|
    ensures Run(s, a, e, p)
    ensures e == |s| || !p(s[e])
    ensures forall b: nat :: Run(s, a, b, p) ==> b <= e
    decreases |s| - a
  {
    if a == |s| || !p(s[a]) then a else RunEnd(s, a + 1, p)
  }

  /** The slice of a run is a string whose characters all satisfy p. */
  lemma RunSlice(s: string, a: nat, b: nat, p: char -> bool)
    requires Run(s, a, b, p)
    ensures forall k :: 0 <= k < b - a ==> p(s[a..b][k])
  {
    forall k | 0 <= k < b - a
      ensures p(s[a..b][k])
    {
      assert s[a..b][k] == s[a + k];
    }
  }

  lemma SliceConcat(s: string, a: nat, b: nat, c: nat)
    requires a <= b <= c <= |s|
    ensures s[a..c] == s[a..b] + s[b..c]
  {
  }

  lemma SliceOfSlice(s: string, a: nat, b: nat, k: nat, l: nat)
    requires a <= b <= |s| && k <= l <= b - a
    ensures s[a..b][k..l] == s[a + k..a + l]
  {
    assert forall j :: 0 <= j < l - k ==> s[a..b][k..l][j] == s[a + k + j];
  }

  /** The literal lit occurs in s at position i. */
  predicate StartsAt(s: string, i: nat, lit: string) {
    i + |lit| <= |s| && s[i..i + |lit|] == lit
  }

  function DigitValue(c: char): nat {
    if IsDigit(c) then (c as int) - ('0' as int) else 0
  }

  function DigitChar(d: nat): (c: char)
    requires d < 10
    ensures IsDigit(c) && DigitValue(c) == d
  {
    ('0' as int + d) as char
  }

  predicate AllDigits(t: string) {
    forall j :: 0 <= j < |t| ==> IsDigit(t[j])
  }

  /** Python's `int(t)` on a string of ASCII digits (leading zeros allowed). */
  function DecimalValue(t: string): nat {
    if |t| == 0 then 0 else 10 * DecimalValue(t[..|t| - 1]) + DigitValue(t[|t| - 1])
  }

  /** Python's `str(n)` for a non-negative integer. */
  function Decimal(n: nat): (t: string)
    ensures 0 < |t| && AllDigits(t)
    ensures |t| > 1 ==> t[0] != '0'
  {
    if n < 10 then [DigitChar(n)] else Decimal(n / 10) + [DigitChar(n % 10)]
  }

  lemma {:induction false} DecimalRoundTrip(n: nat)
    ensures DecimalValue(Decimal(n)) == n
  {
    if n >= 10 {
      var t := Decimal(n);
      assert t[..|t| - 1] == Decimal(n / 10);
      DecimalRoundTrip(n / 10);
    }
  }

  /** The number of characters of the numeral of n, by decade. */
  lemma {:induction false} DecimalLength(n: nat)
    ensures n < 10 ==> |Decimal(n)| == 1
    ensures 10 <= n < 100 ==> |Decimal(n)| == 2
    ensures 100 <= n < 1000 ==> |Decimal(n)| == 3
    ensures 1000 <= n < 10000 ==> |Decimal(n)| == 4
    ensures 10000 <= n ==> |Decimal(n)| >= 5
  {
    if n >= 10 {
      var q := n / 10;
      DecimalLength(q);
      assert |Decimal(n)| == |Decimal(q)| + 1;
      assert n < 100 ==> q < 10;
      assert 100 <= n < 1000 ==> 10 <= q < 100;
      assert 1000 <= n < 10000 ==> 100 <= q < 1000;
      assert 10000 <= n ==> 1000 <= q;
    }
  }

  function Zeros(k: nat): (z: string)
    ensures |z| == k && forall j :: 0 <= j < k ==> z[j] == '0'
  {
    seq(k, _ => '0')
  }

  /** Leading zeros do not change the value `int` reads. */
  lemma {:induction false} LeadingZeros(k: nat, t: string)
    ensures DecimalValue(Zeros(k) + t) == DecimalValue(t)
    decreases |t|, k
  {
    if |t| == 0 {
      assert Zeros(k) + t == Zeros(k);
      if k > 0 {
        assert Zeros(k)[..k - 1] == Zeros(k - 1);
        LeadingZeros(k - 1, []);
        assert Zeros(k - 1) + [] == Zeros(k - 1);
      }
    } else {
      var u := Zeros(k) + t;
      assert u[..|u| - 1] == Zeros(k) + t[..|t| - 1];
      LeadingZeros(k, t[..|t| - 1]);
    }
  }

  /** Python's `str.strip()`: drops the longest leading and trailing runs of
      whitespace. */
  function Strip(t: string): (r: string)
    ensures |r| > 0 ==> !IsSpace(r[0]) && !IsSpace(r[|r| - 1])
    ensures exists a, b :: 0 <= a <= b <= |t| && r == t[a..b] && Run(t, 0, a, IsSpace) && Run(t, b, |t|, IsSpace)
  {
    var a := RunEnd(t, 0, IsSpace);
    var b := TrailingSpaceStart(t, a, |t|);
    t[a..b]
  }

  /** Stripping only removes characters. */
  lemma StripKeepsOut(t: string, c: char)
    requires c !in t
    ensures c !in Strip(t)
  {
    var r := Strip(t);
    var a: nat, b: nat :| a <= b <= |t| && r == t[a..b];
    forall k | 0 <= k < |r|
      ensures r[k] != c
    {
      assert r[k] == t[a + k];
    }
  }

  /** The smallest c >= lo such that t[c..b] is all whitespace. */
  function TrailingSpaceStart(t: string, lo: nat, b: nat): (c: nat)
    requires lo <= b <= |t|
    ensures lo <= c <= b && Run(t, c, b, IsSpace)
    ensures c == lo || !IsSpace(t[c - 1])
    decreases b
  {
    if b > lo && IsSpace(t[b - 1]) then
      var c := TrailingSpaceStart(t, lo, b - 1);
      c
    else b
  }
}

=== FILE: wrappers.dfy ===
/** `Option` stands for Python's `None`-or-value returns, `Result` for a
    value or a raised exception. */
module Wrappers {

  datatype Option<+T> = None | Some(value: T)

  datatype Result<+R, +E> = Success(value: R) | Failure(error: E)
}
